=== FILE: README.md ===
# LA Metro ridership dashboard — data logic in Dafny

This project models the data logic of the LA Metro ridership dashboard. The dashboard
is a React application that loads monthly ridership records, one per line and month,
each with weekday, Saturday and Sunday estimates. It also loads a catalogue of bus and
rail lines. The React components and hooks are not modelled; their pure computations
are, as functions over immutable data:

- the line catalogue: lettered names, former names, colours and the name order
  (`lines.ts`, in its three copies);
- building the selectable line list and writing the metrics back into it (the two
  `useUserDashboardInput` hooks);
- the per-line average and absolute change (`calc.ts`);
- grouping records by line inside a date window, and the chart datasets built from the
  groups (`App.tsx`, `app/page.tsx`, `app/charts/page.tsx`);
- visibility by search text and mode, select-all, toggle and clear;
- the sortable column headers and `lodash.orderBy` sorting of the line table;
- the summary panel totals;
- the CSV export of the selected lines' records;
- the metrics page: filtering, the total, the option lists and the thousands separator;
- the checkbox line selector of the charts page.

Modules follow the program's structure:

- `Optional`, `Seqs`, `Sorting`, `Text`: JavaScript built-ins (`filter`, `indexOf`,
  `sort`, `Number`, `parseInt`, `toLowerCase`, `includes`, `split`, `join`);
- `DashboardTypes`: the records and the line type;
- `Catalog`: the three `lines.ts` files;
- `Calc`: `calc.ts`;
- `Aggregation`: the dashboard page's grouping loop and chart datasets;
- `Dashboard`: the hooks;
- `Columns`: the line selectors' column headers and sorting;
- `Summary`: the summary panel;
- `Csv`: the CSV export;
- `MetricsPage`, `ChartsPage` and `CheckboxSelector`: the three small pages.

Conventions used throughout:

- A JavaScript `null` or `undefined` metric is `Option.None`.
- A `NaN` average (`0 / 0`) is also `None`.
- A date `new Date(year, month)` is compared through its month index `year * 12 + month`.
  This agrees with JavaScript's date order for years from 100 on.
- A JavaScript object used as a map is a Dafny `map`. The order in which
  `Object.entries` enumerates it is an explicit `keys` parameter.

## Model

| member | source | states |
|---|---|---|
| Catalog.DefinedLinesDistinct | src/utils/lines.ts:26-79 | no two catalogue entries share a number or a letter, so a `find` by number is unambiguous |
| Catalog.FindDefinedIsEntry | src/utils/lines.ts:96 | looking up a catalogue number finds that very entry |
| Catalog.GetLineNames | src/utils/lines.ts:95-102 | a catalogue number is named "<letter> Line", with "<former> Line" when the entry has a former letter; any other number is "Line <n>" and has no former name |
| Catalog.GetLineName | src/app/common/lines.ts:66-70 | the older copy's single name: "<letter> Line" for a catalogue number, "Line <n>" otherwise |
| Catalog.CurrentNameAgrees | src/common/lines.ts:73-80 | the current name from `getLineNames` equals the name from `getLineName` for every number, so the catalogue copies agree on names |
| Catalog.NamePrefix | src/utils/lines.ts:108-119 | a name starts with "Line" exactly when its number is not in the catalogue; this is the test the name order relies on |
| Catalog.LetteredName | src/utils/lines.ts:99 | a catalogue name is one capital letter, a space and "Line" |
| Catalog.NumberedName | src/utils/lines.ts:99 | a numbered name is "Line", a space, then the decimal number |
| Catalog.GetLineNameInjective | src/app/common/lines.ts:66-70 | two numbers with the same display name are the same number |
| Catalog.LetteredBothSame | src/app/common/lines.ts:4-50 | two catalogue numbers with the same lettered name are equal |
| Catalog.LetterShape | src/utils/lines.ts:26-79 | every catalogue letter is a single capital letter |
| Catalog.LetterDeterminesEntry | src/utils/lines.ts:26-79 | the letter identifies the catalogue entry |
| Catalog.DefinedColorsHex | src/utils/lines.ts:26-79 | every catalogue colour is a `#rrggbb` code |
| Catalog.GetLineColor | src/utils/lines.ts:87-93 | a colour is returned exactly for catalogue numbers; it is that entry's colour and a `#rrggbb` code |
| Catalog.FindIndex | src/utils/lines.ts:96 | the first position with the number, or -1 when no entry has it |
| Catalog.LineNameCompareAntisymmetric | src/utils/lines.ts:104-131 | swapping the two lines flips the comparator's sign, and ties are symmetric |
| Catalog.LineNameCompareZero | src/utils/lines.ts:122-130 | the comparator ties only on equal names, or on two numbered lines with the same id |
| Catalog.LineNameOrderIsTotalPreorder | src/utils/lines.ts:104-131 | `lineNameSortFunction` is total and transitive, so sorting with it is well defined |
| Catalog.LineNameLeTransitive | src/utils/lines.ts:104-131 | the name order is transitive across lettered, numbered and mixed triples |
| Text.NumberOfIntToString | src/App.tsx:135 | `Number` of the decimal text of an integer gives that integer back, so a line id survives being used as an object key |
| Text.ParseIntOfIntToString | src/app/metrics/page.tsx:34 | `parseInt` of a year's decimal text gives the year back |
| Text.DigitsValueOfNatToString | src/App.tsx:135 | reading the digits of a natural number's text gives the number |
| Text.IntToStringInjective | src/App.tsx:133-141 | distinct ids have distinct keys |
| Text.LexLessTransitive | src/utils/lines.ts:122-127 | the string `<` used for lettered names is transitive |
| Text.LexLessTotal | src/utils/lines.ts:122-130 | two different strings are ordered one way or the other |
| Text.IncludesIff | src/hooks/useUserDashboardInput.ts:134-136 | `includes` holds exactly when the text occurs at some position |
| Text.IncludesPrefix | src/hooks/useUserDashboardInput.ts:132-141 | a line that contains a search text also contains every prefix of it |
| Text.Lower | src/hooks/useUserDashboardInput.ts:133-135 | lower-casing keeps the length, leaves no ASCII capital, turns each capital into its small letter and leaves every other character as it is |
| Text.LowerIdempotent | src/hooks/useUserDashboardInput.ts:133-135 | lower-casing an already lower-cased text changes nothing |
| Text.LowerAppend | src/hooks/useUserDashboardInput.ts:133-135 | lower-casing distributes over concatenation |
| Text.SplitJoin | src/app/inputComponents/linesSelector.tsx:257 | splitting a comma-joined row on commas gives the fields back when no field holds a comma |
| Text.ReadLinesTerminated | src/app/inputComponents/linesSelector.tsx:258 | reading CRLF-terminated rows back gives the rows when no row holds a carriage return |
| Seqs.Filter | src/app/metrics/page.tsx:32-37 | `filter` keeps exactly the elements satisfying the predicate, in order |
| Seqs.FilterIdempotent | src/hooks/useUserDashboardInput.ts:146-150 | filtering twice with the same predicate is filtering once |
| Seqs.FilterMultiset | src/app/metrics/page.tsx:32-37 | filtering never adds elements and keeps every satisfying one with its multiplicity |
| Seqs.FindFirst | src/hooks/useUserDashboardInput.ts:167-169 | `findIndex`: the first position whose element satisfies the test, or -1 when none does |
| Seqs.Dedupe | src/app/metrics/page.tsx:47-48 | the `indexOf(value) === index` filter has no duplicates, keeps every value, and orders values by first occurrence |
| Seqs.DedupeOfDistinct | src/app/metrics/page.tsx:48 | an array without duplicates is unchanged by the de-duplication |
| Sorting.SortBy | src/hooks/useUserDashboardInput.ts:68 | sorting is a permutation of its input |
| Sorting.SortBySorted | src/hooks/useUserDashboardInput.ts:68 | sorting with a total preorder gives a sorted result |
| Sorting.SortBySortedIdentity | src/app/inputComponents/calc.ts:26-32 | sorting already sorted data changes nothing |
| Sorting.SortedUnique | src/app/inputComponents/calc.ts:26-32 | two sorted permutations of the same data without ties are equal |
| Sorting.SortByPermutationInvariant | src/app/inputComponents/calc.ts:26-32 | without ties, the sorted result does not depend on the input order |
| Calc.CalcAvg | src/app/inputComponents/calc.ts:10-17 | no average for no records, otherwise the average times the count is the sum, null values counting as 0 |
| Calc.CalcAvgCountsNulls | src/app/inputComponents/calc.ts:11-13 | a record with a null value still counts in the divisor |
| Calc.CalcAvgPermutation | src/app/inputComponents/calc.ts:10-17 | the average does not depend on record order |
| Calc.SumRidershipPermutation | src/app/inputComponents/calc.ts:12-14 | the reduced sum does not depend on record order |
| Calc.SumRidershipAppend | src/app/inputComponents/calc.ts:12-14 | the sum of two runs of records is the sum of the sums |
| Calc.ChronoLeIsDateOrder | src/app/inputComponents/calc.ts:26-32 | for months 0 to 11 the year-then-month comparator orders records by their month index, which is the `Date` order for years from 100 on |
| Calc.ChronoIsTotalPreorder | src/app/inputComponents/calc.ts:26-32 | the chronological comparator is a valid sort order |
| Calc.CalcAbsChange | src/app/inputComponents/calc.ts:25-38 | the records are sorted chronologically in place, and the change is last minus first with nulls as 0 |
| Calc.CalcAbsChangeSingle | src/app/inputComponents/calc.ts:34-37 | one record has change 0 |
| Calc.CalcAbsChangeResort | src/app/inputComponents/calc.ts:26-32 | running the calculation again on the already sorted records gives the same result |
| Calc.CalcAbsChangeOrderIndependent | src/app/inputComponents/calc.ts:25-38 | with one record per month, the change does not depend on record order |
| Calc.CalcAbsChangeReverse | src/app/inputComponents/calc.ts:25-38 | with one record per month, reversed records give the same change |
| Calc.DistinctDatesNoTies | src/app/inputComponents/calc.ts:27-31 | records with distinct months never tie under the comparator |
| Aggregation.SelectedFor | src/App.tsx:134-136 | a bucket is selected exactly when the key reads as a number and the first line with that id is selected |
| Aggregation.AggregateGroups | src/App.tsx:119-148 | one bucket per line name that has a record strictly inside the window; it holds that line's in-window records in data order, and its selection flag is taken from the lines |
| Aggregation.AggregateRidership | src/App.tsx:119-148 | the loop computes that grouping |
| Aggregation.AggregatePartition | src/App.tsx:123-145 | every in-window record lands in its own line's bucket, as many times as it occurs, and nowhere else |
| Aggregation.AggregateEmptyWindow | src/App.tsx:127-131 | a window with no month strictly between its bounds gives no buckets; this includes adjacent bounds, because both ends are excluded |
| Aggregation.TimeLabelReadsBack | src/App.tsx:163 | the `"year month"` label splits into the record's year and month |
| Aggregation.TimeLabelInjective | src/App.tsx:163 | two records share a label exactly when they share year and month |
| Aggregation.ChartDatasets | src/App.tsx:154-171 | over the object's distinct keys, one dataset per selected bucket, in key order, labelled with the display name, coloured from the catalogue, with one point per record |
| Aggregation.ChartDatasetsSelectedOnly | src/App.tsx:155-165 | only selected buckets are charted, and each point carries its record's label and chosen day's value |
| Dashboard.CreateLines | src/hooks/useUserDashboardInput.ts:56-69 | the created lines are the mapped metadata entries, reordered by `lineNameSortFunction` |
| Dashboard.CreateLinesData | src/hooks/useUserDashboardInput.ts:56-69 | one line per metadata entry, sorted by name; each starts unselected and visible, with no metrics, and is named from `getLineNames` |
| Dashboard.LegacyCreateLinesData | src/app/hooks/useUserDashboardInput.ts:50-63 | the older hook's lines: named from `getLineName`, no former name, otherwise as above, sorted by the `src/utils/lines.ts` name order in place of the unresolved import |
| Dashboard.CreateLinesDataOrder | src/utils/lines.ts:108-119 | lettered lines come before numbered ones, and numbered lines are in ascending id order |
| Dashboard.WithMetrics | src/hooks/useUserDashboardInput.ts:105-126 | a line with a bucket keeps its identity and state and gets the records' average and change |
| Dashboard.WithoutMetrics | src/hooks/useUserDashboardInput.ts:98-103 | a line without a bucket loses its average and change and keeps its start and end values |
| Dashboard.UpdatedLine | src/hooks/useUserDashboardInput.ts:91-127 | each line's new metrics come from its own bucket, or are cleared when it has none |
| Dashboard.SortedBucket | src/app/inputComponents/calc.ts:26 | the in-place sort leaves a bucket with the same records in chronological order |
| Dashboard.SortAt | src/hooks/useUserDashboardInput.ts:111-114 | reading a bucket sorts that bucket only |
| Dashboard.WithMetricsSorted | src/app/inputComponents/calc.ts:26-32 | the metrics computed from a bucket sorted earlier equal those from the original bucket |
| Dashboard.SortAtKeepsState | src/hooks/useUserDashboardInput.ts:90-128 | sorting buckets while mapping keeps every bucket either original or sorted, and leaves later metrics unchanged |
| Dashboard.UpdateLinesFromState | src/hooks/useUserDashboardInput.ts:87-129 | the sequential update, with its in-place sorts, gives every line the metrics of its bucket in the original dataset |
| Dashboard.UpdateDatasetFromState | src/hooks/useUserDashboardInput.ts:106-114 | after the update, every looked-up bucket is sorted and every other bucket is untouched |
| Dashboard.UpdateLinesAllAtOnce | src/app/hooks/useUserDashboardInput.ts:132-162 | updating the lines one by one equals updating each from the original dataset; only looked-up buckets end up sorted |
| Dashboard.VisibleLines | src/hooks/useUserDashboardInput.ts:131-150 | visible lines are exactly the lines matching the search, with a truthy average and change, and `visible` set |
| Dashboard.SearchNarrows | src/hooks/useUserDashboardInput.ts:132-141 | typing more search text never makes a hidden line visible |
| Dashboard.SearchCaseInsensitive | src/hooks/useUserDashboardInput.ts:131-144 | lower-casing the search text never changes whether a line is visible |
| Dashboard.SelectAllVisibleLines | src/hooks/useUserDashboardInput.ts:152-160 | a line ends up selected exactly when it was selected or is visible; nothing else changes |
| Dashboard.SelectAllIdempotent | src/hooks/useUserDashboardInput.ts:152-160 | selecting all twice is selecting all once |
| Dashboard.SelectAllSelectsVisible | src/app/hooks/useUserDashboardInput.ts:98-106 | after select-all every visible line is selected and the visible set keeps its size |
| Dashboard.OnToggleSelectLine | src/hooks/useUserDashboardInput.ts:162-176 | the first line with the id flips its selection; every other line is unchanged |
| Dashboard.ToggleInvolution | src/app/hooks/useUserDashboardInput.ts:108-122 | toggling the same line twice restores the lines |
| Dashboard.ToggleDistinctIds | src/hooks/useUserDashboardInput.ts:167-172 | with distinct ids exactly the line with that id flips |
| Dashboard.ClearSelections | src/hooks/useUserDashboardInput.ts:178-184 | every line is unselected and nothing else changes |
| Dashboard.ClearIdempotent | src/app/hooks/useUserDashboardInput.ts:124-130 | clearing twice is clearing once |
| Dashboard.ClearAbsorbsSelection | src/hooks/useUserDashboardInput.ts:152-184 | clearing after a toggle or a select-all gives the same lines as clearing alone |
| Dashboard.ApplyModeFilter | src/components/LineFilters.tsx:27-48 | a line becomes visible exactly when it is a bus with "bus" active or a rail line with "train" active; nothing else changes |
| Dashboard.ResetShowsBusAndRail | src/app/inputComponents/filters.tsx:23-27 | the initial modes show every bus and rail line and hide the rest |
| Dashboard.ModeFilterLastWins | src/app/inputComponents/filters.tsx:29-50 | the filter depends only on the latest modes, so reapplying it changes nothing |
| Columns.ToggleSortDirection | src/components/LineSelector.tsx:92-102 | a click always changes the direction |
| Columns.ToggleSortDirectionCycle | src/app/inputComponents/linesSelector.tsx:95-105 | the direction cycles through off, ascending and descending, returning after three clicks |
| Columns.FindColumn | src/components/LineSelector.tsx:170-175 | the first column with the key, or -1 when none has it |
| Columns.OnSortLabelClick | src/components/LineSelector.tsx:150-201 | the clicked column advances its direction and every other column is switched off; an unknown key changes nothing; titles, keys and alignment are kept |
| Columns.ClickKeepsOneActive | src/app/inputComponents/metroLinesSelector.tsx:145-170 | after a click at most one column sorts |
| Columns.ClickThriceRestores | src/app/inputComponents/linesSelector.tsx:156-181 | clicking the only active column three times restores the headers |
| Columns.SameKeysSameColumn | src/components/LineSelector.tsx:170-175 | the lookup by key depends only on the columns' keys |
| Columns.CompareAscending | src/components/LineSelector.tsx:216-225 | the per-column compare puts `undefined` after every defined value, orders numbers by value and strings by character order, and ties only on equal values |
| Columns.CompareAscendingAntisymmetric | src/components/LineSelector.tsx:216-225 | the per-column compare flips under swapping and ties only on equal values |
| Columns.CompareAscendingTransitive | src/components/LineSelector.tsx:216-225 | the per-column compare is transitive |
| Columns.CompareByAntisymmetric | src/components/LineSelector.tsx:216-225 | the compound comparator over the active columns flips under swapping |
| Columns.CompareByTransitive | src/components/LineSelector.tsx:216-225 | the compound comparator is transitive, strictly when either step is strict |
| Columns.CompareByIsTotalPreorder | src/components/LineSelector.tsx:216-225 | the `orderBy` comparator is a valid sort order |
| Columns.SortedLines | src/components/LineSelector.tsx:203-228 | with no active column the lines are returned as given; otherwise they are a permutation sorted by the active columns |
| Columns.SortedLinesOneColumn | src/app/inputComponents/linesSelector.tsx:196-209 | with one active column, the lines are ordered by that column's value, ascending or descending |
| Columns.OnlyActiveColumn | src/app/inputComponents/metroLinesSelector.tsx:185-198 | when one column sorts, it is the only column passed to `orderBy` |
| Summary.Selected | src/components/SummaryData.tsx:10-12 | the summary reads exactly the selected lines |
| Summary.SummaryIsFold | src/components/SummaryData.tsx:10-36 | filter, map with `?? 0`, then reduce equals adding up each line's contribution in one pass |
| Summary.SummaryStep | src/components/SummaryData.tsx:14-36 | one more line adds exactly its contribution |
| Summary.SummaryAppend | src/app/pureDisplayComponents/summaryData.tsx:16-34 | the totals of two runs of lines add up |
| Summary.SummarySelectedOnly | src/app/pureDisplayComponents/summaryData.tsx:16-18 | pre-filtering to the selected lines does not change the totals |
| Summary.SummaryNoneSelected | src/components/SummaryData.tsx:10-40 | with nothing selected every total is 0 |
| Summary.SummaryIgnoresOtherFields | src/components/SummaryData.tsx:14-36 | the totals depend only on selection and the three metric fields |
| Summary.FoldTotalsAppend | src/components/SummaryData.tsx:14-36 | the reference fold distributes over concatenation |
| Csv.CsvDownload | src/app/inputComponents/linesSelector.tsx:224-264 | the loop builds the prefix, the header row and the CRLF-terminated rows of the selected lines' records |
| Csv.CsvReadsBack | src/app/inputComponents/linesSelector.tsx:224-264 | the export parses back into the six fields of every exported record, in order |
| Csv.CsvRowReadsBack | src/app/inputComponents/linesSelector.tsx:244-258 | a row splits into its six fields; year, month and the three ridership values read back, `null` for a missing value |
| Csv.FieldReadsBack | src/app/inputComponents/metroLinesSelector.tsx:248 | a ridership field reads back as its value or `null` |
| Csv.DisplayNamePlain | src/app/inputComponents/linesSelector.tsx:255 | a line's display name holds no comma or carriage return, so it never breaks a row |
| Csv.ExportedRecordsMembership | src/app/inputComponents/linesSelector.tsx:233-241 | a record is exported exactly when it is in the bucket of a selected line |
| Csv.ExportedRecordsAppend | src/app/inputComponents/linesSelector.tsx:233-260 | the export of two runs of lines is the first run's rows then the second's |
| Csv.ExportedRecordsSingle | src/app/inputComponents/linesSelector.tsx:233-241 | one line exports its bucket's records when selected and looked up, and nothing otherwise |
| Csv.FlattenLength | src/app/inputComponents/linesSelector.tsx:244-260 | the row count is the sum of the bucket sizes |
| Csv.RowsAppend | src/app/inputComponents/linesSelector.tsx:244-260 | rows of two runs of records are the rows of each, in order |
| MetricsPage.ChosenRecords | src/app/metrics/page.tsx:32-37 | a record is chosen exactly when its line is ticked and its year equals `parseInt` of the chosen year, and data order is kept |
| MetricsPage.TotalIsRunningTotal | src/app/metrics/page.tsx:39-42 | filter then reduce equals one pass adding each chosen record's column |
| MetricsPage.TotalSnoc | src/app/metrics/page.tsx:39-42 | one more record adds its value exactly when it is chosen |
| MetricsPage.LineOptions | src/app/metrics/page.tsx:47-48 | each line name of the data appears once, in order of first appearance |
| MetricsPage.YearOptions | src/app/metrics/page.tsx:50-51 | each year of the data appears once, in order of first appearance |
| MetricsPage.FormatUngroups | src/app/metrics/page.tsx:140 | deleting the inserted commas gives the plain number back |
| MetricsPage.CommaAtDigits | src/app/metrics/page.tsx:140 | in a digit string the separator goes exactly where a positive multiple of three digits remains |
| MetricsPage.FormatGroups | src/app/metrics/page.tsx:140 | the formatted total splits on commas into a lead group of one to three digits, then groups of three |
| MetricsPage.FormatIsJoin | src/app/metrics/page.tsx:140 | the formatted digits are the digit groups joined with commas |
| MetricsPage.Groups | src/app/metrics/page.tsx:140 | the groups concatenate back to the digits and all but the first hold three digits |
| ChartsPage.YearChoices | src/app/charts/page.tsx:73-79 | the year list is 2009 to 2024, ascending, with each year once |
| ChartsPage.GroupGroups | src/app/charts/page.tsx:100-116 | one entry per chosen line name, holding that line's chosen records in data order |
| ChartsPage.GroupPartition | src/app/charts/page.tsx:105-116 | each chosen record lands in its own line's entry with its multiplicity, and nowhere else |
| ChartsPage.SubmitDatasets | src/app/charts/page.tsx:99-134 | over the object's distinct keys, one dataset per key, labelled "Line <key>", whose points are the line's chosen records as month and value pairs; keys are exactly the chosen lines |
| CheckboxSelector.Toggle | src/app/components/lineSelector.tsx:52-69 | a click appends an unticked id, or removes one occurrence of a ticked id and keeps the other ids in their order |
| CheckboxSelector.ToggleMembership | src/app/components/lineSelector.tsx:55-70 | on a list without duplicates a click flips that box only and keeps the list free of duplicates |
| CheckboxSelector.ToggleAppendRemove | src/app/components/lineSelector.tsx:55-62 | ticking then unticking a box restores the list |
| CheckboxSelector.LabelAgreesWithCatalog | src/app/components/lineSelector.tsx:17-25 | a bus label and a lettered rail label equal the catalogue name; a rail line without a letter reads "undefined Line" |
| DashboardTypes.FindLineIndex | src/hooks/useUserDashboardInput.ts:167-169 | the first line with the id, or -1 when there is none |

## Left out

- React state, effects, rendering, routing, Chart.js and the form library are not modelled. The model starts from the data these components pass around.
- Loading the JSON data files is left out. The records and the catalogue metadata are parameters.
- The date-range selector components are left out. The window's two dates are parameters, as month indices.
- `useMetroDashboard` is left out. It wires the hooks together and computes nothing of its own.
- `getLineColor` for a number outside the catalogue returns a `randomColor` in the source. The model returns no colour, because the colour is random.
- The current hook takes `calcAvg` and `calcAbsChange` from `src/utils/calc`, which is not part of this model. The model assumes they are those of `src/app/inputComponents/calc.ts`. The in-place sort of `calcAbsChange`, which `Dashboard.UpdateDatasetFromState` describes, rests on that assumption.
- `calcStart` and `calcEnd` come from `src/utils/calc`, which is not part of this model. They are an opaque parameter (`EndpointCalcs`).
- Dashboard.WithMetrics states nothing about the start and end values when those functions are supplied, because their code is not part of this model.
- Dashboard.LegacyCreateLinesData: does not model the older hook's sort as written. The hook imports `lineNameSortFunction` from `../common/types` (src/app/hooks/useUserDashboardInput.ts:2), and src/app/common/types.ts exports only `Line`. The code as written therefore either fails to compile or calls `.sort(undefined)` (line 62). The default sort compares every line as the string "[object Object]", so the lines keep their metadata order: metadata `[{line: 2}, {line: 801}]` gives [Line 2, A Line]. The model sorts with the comparator of `src/utils/lines.ts` instead, which gives [A Line, Line 2].
- A metadata mode other than `Bus` and `Rail` is `OtherMode`, whose name excludes those two strings. In JavaScript the string "Bus" is simply a bus, so a single reading is kept.
- Floating point is not modelled. Averages are exact reals, and `Math.round` and `toLocaleString` in the table rows are left out.
- Text.LexLess: compares characters as Unicode scalar values. JavaScript's `<` compares UTF-16 code units, and the two orders differ for characters outside the Basic Multilingual Plane. The catalogue's names are ASCII.
- Calc.ChronoLeIsDateOrder: matches the `Date` order only for years from 100 on. JavaScript reads the years 0 to 99 in `new Date(year, month)` as 1900 to 1999, and `DashboardTypes.MonthIndex` does not. The data's years are 2009 and later.
- Lower-casing covers ASCII letters only. `toLocaleLowerCase` of other scripts is not modelled.
- `encodeURI` of the CSV text is left out. The model keeps the unescaped text after the `data:text/csv` prefix.
- The `generateCSV` helper of the metro selector is not present in the source, so it is not modelled.
- The month labels at `src/App.tsx:173-175` read an earlier render's datasets, so they are left out.
- The optional `Line` fields that no modelled code reads are not modelled: division, map links and `ridershipOverTime`. The `ridershipOverTime` column always compares as `undefined`.
- Text.Number: covers the empty string and an optional minus sign followed by digits, the forms the data produces. Whitespace, `+`, decimals, exponents and hexadecimal forms are not modelled.
- Text.ParseInt: covers an optional sign followed by the leading run of digits. Leading whitespace and radix prefixes are not modelled.
- The `Object.entries` order is a parameter. JavaScript lists integer-like keys first, in ascending order, and then the rest in insertion order; the model does not derive this.
- Object keys such as `__proto__` are treated like any other key.
- Dashboard.OnToggleSelectLine: an id that no line has leaves the lines unchanged. The source writes to index -1 of the copied array, which adds a property that no array method reads.
- Columns.CompareAscending: no column mixes numbers and strings. The order between the two kinds is fixed only to keep the relation total.
- MetricsPage.ChosenRecords: takes a list of ticked names. When no box is ticked the form submits `false` instead, and `data.lines.includes` (src/app/metrics/page.tsx:33) throws a TypeError. `setTotal` is then never called and the previous total stays on screen. The model does not represent the throw; given an empty list it yields a total of 0.
- MetricsPage.TotalIsRunningTotal: takes one of the three ridership columns as `stat`. The form has no default values (src/app/metrics/page.tsx:23-28), and its Day radios start unchecked (116-128). If the user submits without choosing a day, `data.stat` is empty and `curr[data.stat]` is `undefined`. The sum at line 41 then becomes `NaN`, and the page shows "Ridership: NaN" whenever a record is chosen. The model does not represent that outcome.
- MetricsPage.FormatGroups: covers non-negative totals. Ridership totals cannot be negative.
- ChartsPage.SubmitDatasets: takes one of the three ridership columns as `stat`. The chart page's form defaults `stat` to the weekday column and `lines` to an empty list (src/app/charts/page.tsx:60-64), so every submission has one of them.

Where the behaviour described for the dashboard and the code differ, the model follows the code:

- `calcAbsChange` sorts the bucket in place. The hooks' update therefore also returns the mutated dataset, and `Dashboard.UpdateDatasetFromState` states what it looks like.
- `calcAbsChange` on an empty array throws rather than returning `NaN`. It is only ever called on non-empty buckets, so `Calc.CalcAbsChange` requires a non-empty input.
- The older code under `src/app` names its record list `metrics`, and the current code names it `ridershipRecords`. Both are the bucket's `records`.
- The checkbox selector labels a rail line without a letter "undefined Line", as the code does.

=== FILE: aggregation.dfy ===
/**
 * The dashboard's aggregation pass: keep the monthly records whose date lies strictly
 * inside the chosen window, group them by `line_name` in input order, tag each group with
 * the selection state of the matching catalogue line, and turn the selected groups into
 * chart datasets.
 */
module Aggregation {
  import opened Optional
  import opened Seqs
  import opened Text
  import opened DashboardTypes
  import opened Catalog

  /** `startDate < new Date(year, month) < endDate`; both window ends are month indices. */
  predicate InWindow(r: RidershipRecord, start: int, end: int) {
    start < MonthIndex(r.year, r.month) < end
  }

  function InWindowOf(start: int, end: int): RidershipRecord -> bool {
    r => InWindow(r, start, end)
  }

  /** A kept record of the line called `k`. */
  function OfLine(start: int, end: int, k: string): RidershipRecord -> bool {
    r => InWindow(r, start, end) && r.lineName == k
  }

  /** `i` is the first position of a line with id `n`. */
  predicate FirstWithId(lines: seq<Line>, i: int, n: int) {
    0 <= i < |lines| && lines[i].id == n && forall j :: 0 <= j < i ==> lines[j].id != n
  }

  /**
   * `!!lines.find((line) => line.id === Number(k))?.selected`: the first line whose id
   * equals the key's numeric value is selected. A `NaN` key equals no id.
   */
  function SelectedFor(lines: seq<Line>, k: string): (b: bool)
    ensures b <==> Number(k).Some? && exists i :: FirstWithId(lines, i, Number(k).value) && lines[i].selected
  {
    match Number(k)
    case None => false
    case Some(n) =>
      var i := FindLineIndex(lines, n);
      i >= 0 && lines[i].selected
  }

  /**
   * The loop of the aggregation effect as a fold over the records: a kept record is
   * appended to the bucket of its line name, a bucket is created (with its `selected`
   * flag) by the first kept record of that name.
   */
  function Aggregate(lines: seq<Line>, recs: seq<RidershipRecord>, start: int, end: int): Aggregated
    decreases |recs|
  {
    if |recs| == 0 then map[]
    else
      var prev := Aggregate(lines, recs[..|recs| - 1], start, end);
      var x := recs[|recs| - 1];
      if !InWindow(x, start, end) then prev
      else if x.lineName in prev then
        prev[x.lineName := Bucket(prev[x.lineName].selected, prev[x.lineName].records + [x])]
      else prev[x.lineName := Bucket(SelectedFor(lines, x.lineName), [x])]
  }

  /** Some kept record is called `k`. */
  ghost predicate HasKept(recs: seq<RidershipRecord>, start: int, end: int, k: string) {
    exists i :: 0 <= i < |recs| && InWindow(recs[i], start, end) && recs[i].lineName == k
  }

  /** The bucket contents a correct grouping must have. */
  ghost predicate GroupedBy(r: Aggregated, lines: seq<Line>, recs: seq<RidershipRecord>, start: int, end: int) {
    (forall k :: k in r <==> HasKept(recs, start, end, k)) &&
    (forall k :: k in r ==> r[k].records == Filter(recs, OfLine(start, end, k))) &&
    (forall k :: k in r ==> r[k].selected == SelectedFor(lines, k)) &&
    (forall k :: k in r ==> |r[k].records| > 0)
  }

  /** One more record: how the kept-name predicate grows. */
  lemma HasKeptSnoc(init: seq<RidershipRecord>, x: RidershipRecord, start: int, end: int, k: string)
    ensures HasKept(init + [x], start, end, k) <==>
      HasKept(init, start, end, k) || (InWindow(x, start, end) && x.lineName == k)
  {
    var recs := init + [x];
    if HasKept(recs, start, end, k) && !(InWindow(x, start, end) && x.lineName == k) {
      var i :| 0 <= i < |recs| && InWindow(recs[i], start, end) && recs[i].lineName == k;
      assert recs[i] == init[i];
    }
    if HasKept(init, start, end, k) {
      var i :| 0 <= i < |init| && InWindow(init[i], start, end) && init[i].lineName == k;
      assert recs[i] == init[i];
    }
    if InWindow(x, start, end) && x.lineName == k {
      assert recs[|init|] == x;
    }
  }

  /** Without a kept record called `k`, filtering for `k` gives nothing. */
  lemma NoKeptNoFilter(recs: seq<RidershipRecord>, start: int, end: int, k: string)
    requires !HasKept(recs, start, end, k)
    ensures Filter(recs, OfLine(start, end, k)) == []
  {
  }

  /**
   * The buckets are exactly the kept line names; each holds that name's kept records in
   * input order, is non-empty, and carries the matching line's selection.
   */
  lemma {:induction false} AggregateGroups(lines: seq<Line>, recs: seq<RidershipRecord>, start: int, end: int)
    ensures GroupedBy(Aggregate(lines, recs, start, end), lines, recs, start, end)
    decreases |recs|
  {
    if |recs| > 0 {
      var init := recs[..|recs| - 1];
      var x := recs[|recs| - 1];
      assert recs == init + [x];
      AggregateGroups(lines, init, start, end);
      AggregateStep(lines, init, x, start, end);
    }
  }

  /** The step of `AggregateGroups`: one more record keeps the grouping correct. */
  lemma AggregateStep(lines: seq<Line>, init: seq<RidershipRecord>, x: RidershipRecord, start: int, end: int)
    requires GroupedBy(Aggregate(lines, init, start, end), lines, init, start, end)
    ensures GroupedBy(Aggregate(lines, init + [x], start, end), lines, init + [x], start, end)
  {
    var r := Aggregate(lines, init + [x], start, end);
    forall k
      ensures k in r <==> HasKept(init + [x], start, end, k)
      ensures k in r ==> r[k].records == Filter(init + [x], OfLine(start, end, k))
      ensures k in r ==> r[k].selected == SelectedFor(lines, k) && |r[k].records| > 0
    {
      AggregateStepAt(lines, init, x, start, end, k);
    }
  }

  /** `AggregateStep` for one key. */
  lemma AggregateStepAt(lines: seq<Line>, init: seq<RidershipRecord>, x: RidershipRecord, start: int, end: int, k: string)
    requires GroupedBy(Aggregate(lines, init, start, end), lines, init, start, end)
    ensures var r := Aggregate(lines, init + [x], start, end);
      (k in r <==> HasKept(init + [x], start, end, k)) &&
      (k in r ==> r[k].records == Filter(init + [x], OfLine(start, end, k))) &&
      (k in r ==> r[k].selected == SelectedFor(lines, k) && |r[k].records| > 0)
  {
    var prev := Aggregate(lines, init, start, end);
    assert k in prev <==> HasKept(init, start, end, k);
    assert k in prev ==>
      prev[k].records == Filter(init, OfLine(start, end, k)) &&
      prev[k].selected == SelectedFor(lines, k) && |prev[k].records| > 0;
    AggregateStepKey(lines, init, x, start, end, k);
  }

  /** `AggregateStepAt` from the facts about key `k` alone. */
  lemma AggregateStepKey(lines: seq<Line>, init: seq<RidershipRecord>, x: RidershipRecord, start: int, end: int, k: string)
    requires var prev := Aggregate(lines, init, start, end);
      (k in prev <==> HasKept(init, start, end, k)) &&
      (k in prev ==>
        prev[k].records == Filter(init, OfLine(start, end, k)) &&
        prev[k].selected == SelectedFor(lines, k) && |prev[k].records| > 0)
    ensures var r := Aggregate(lines, init + [x], start, end);
      (k in r <==> HasKept(init + [x], start, end, k)) &&
      (k in r ==> r[k].records == Filter(init + [x], OfLine(start, end, k))) &&
      (k in r ==> r[k].selected == SelectedFor(lines, k) && |r[k].records| > 0)
  {
    var recs := init + [x];
    assert recs[..|recs| - 1] == init;
    assert recs[|recs| - 1] == x;
    var prev := Aggregate(lines, init, start, end);
    var r := Aggregate(lines, recs, start, end);
    HasKeptSnoc(init, x, start, end, k);
    FilterSnoc(init, x, OfLine(start, end, k));
    if !InWindow(x, start, end) {
      assert r == prev;
    } else if k != x.lineName {
      assert k in r <==> k in prev;
      assert k in r ==> r[k] == prev[k];
    } else if k in prev {
      assert r[k] == Bucket(prev[k].selected, prev[k].records + [x]);
    } else {
      NoKeptNoFilter(init, start, end, k);
      assert r[k] == Bucket(SelectedFor(lines, k), [] + [x]);
    }
  }

  lemma AggregateUnfold(lines: seq<Line>, recs: seq<RidershipRecord>, i: int, start: int, end: int)
    requires 0 <= i < |recs|
    ensures var prev := Aggregate(lines, recs[..i], start, end);
      var x := recs[i];
      Aggregate(lines, recs[..i + 1], start, end) ==
        if !InWindow(x, start, end) then prev
        else if x.lineName in prev then
          prev[x.lineName := Bucket(prev[x.lineName].selected, prev[x.lineName].records + [x])]
        else prev[x.lineName := Bucket(SelectedFor(lines, x.lineName), [] + [x])]
  {
    assert recs[..i + 1][..i] == recs[..i];
    assert recs[..i + 1][i] == recs[i];
    assert [] + [recs[i]] == [recs[i]];
  }

  /**
   * The loop of the aggregation effect (`App.tsx`; the `page.tsx` copy is the same loop),
   * with the key created empty and then pushed to, as written.
   */
  method AggregateRidership(lines: seq<Line>, recs: seq<RidershipRecord>, start: int, end: int)
    returns (agg: Aggregated)
    ensures agg == Aggregate(lines, recs, start, end)
    ensures forall k :: k in agg <==> HasKept(recs, start, end, k)
    ensures forall k :: k in agg ==> agg[k].records == Filter(recs, OfLine(start, end, k)) && |agg[k].records| > 0
    ensures forall k :: k in agg ==> agg[k].selected == SelectedFor(lines, k)
  {
    agg := map[];
    var i := 0;
    while i < |recs|
      invariant 0 <= i <= |recs|
      invariant agg == Aggregate(lines, recs[..i], start, end)
    {
      var x := recs[i];
      AggregateUnfold(lines, recs, i, start, end);
      if !InWindow(x, start, end) {
        i := i + 1;
        continue;
      }
      if x.lineName !in agg {
        agg := agg[x.lineName := Bucket(SelectedFor(lines, x.lineName), [])];
      }
      var w := agg[x.lineName];
      agg := agg[x.lineName := Bucket(w.selected, w.records + [x])];
      i := i + 1;
    }
    assert recs[..|recs|] == recs;
    AggregateGroups(lines, recs, start, end);
  }

  /** A window with no month strictly between its bounds keeps nothing. */
  lemma AggregateEmptyWindow(lines: seq<Line>, recs: seq<RidershipRecord>, start: int, end: int)
    requires end <= start + 1
    ensures Aggregate(lines, recs, start, end) == map[]
  {
    AggregateGroups(lines, recs, start, end);
    var r := Aggregate(lines, recs, start, end);
    assert r.Keys == {};
  }

  /**
   * The buckets partition the kept records: every kept record occurs in the bucket of its
   * line name exactly as often as in the input, and no bucket holds anything else.
   */
  lemma AggregatePartition(lines: seq<Line>, recs: seq<RidershipRecord>, start: int, end: int, x: RidershipRecord)
    ensures var r := Aggregate(lines, recs, start, end);
      multiset(Filter(recs, InWindowOf(start, end)))[x] ==
      (if x.lineName in r then multiset(r[x.lineName].records)[x] else 0)
    ensures var r := Aggregate(lines, recs, start, end);
      forall k :: k in r && x in r[k].records ==> k == x.lineName && InWindow(x, start, end)
  {
    AggregateGroups(lines, recs, start, end);
    var r := Aggregate(lines, recs, start, end);
    FilterMultiset(recs, InWindowOf(start, end));
    if InWindow(x, start, end) {
      if x.lineName in r {
        FilterMultiset(recs, OfLine(start, end, x.lineName));
      } else {
        assert forall i :: 0 <= i < |recs| ==> recs[i] != x;
      }
    } else {
      assert x !in Filter(recs, InWindowOf(start, end));
      if x.lineName in r {
        assert x !in r[x.lineName].records;
      }
    }
  }

  /** A point of a chart dataset: `{ time: year + ' ' + month, stat: record[dayOfWeek] }`. */
  datatype ChartPoint = ChartPoint(time: string, stat: Option<int>)

  /** A chart dataset: legend label, numeric id, colour (`None` where a random colour is drawn), points. */
  datatype ChartDataset = ChartDataset(legend: string, id: Option<int>, color: Option<string>, data: seq<ChartPoint>)

  function TimeLabel(r: RidershipRecord): string {
    IntToString(r.year) + " " + IntToString(r.month)
  }

  /** The time label reads back as the record's year and month. */
  lemma TimeLabelReadsBack(r: RidershipRecord)
    ensures |Split(TimeLabel(r), ' ')| == 2
    ensures Number(Split(TimeLabel(r), ' ')[0]) == Some(r.year)
    ensures Number(Split(TimeLabel(r), ' ')[1]) == Some(r.month)
  {
    var parts := [IntToString(r.year), IntToString(r.month)];
    assert Join(parts, ' ') == TimeLabel(r) by {
      assert parts[1..] == [IntToString(r.month)];
    }
    SplitJoin(parts, ' ');
    NumberOfIntToString(r.year);
    NumberOfIntToString(r.month);
  }

  /** Two records get the same time label only when they are for the same month. */
  lemma TimeLabelInjective(a: RidershipRecord, b: RidershipRecord)
    ensures TimeLabel(a) == TimeLabel(b) <==> a.year == b.year && a.month == b.month
  {
    if TimeLabel(a) == TimeLabel(b) {
      TimeLabelReadsBack(a);
      TimeLabelReadsBack(b);
    }
  }

  function Points(recs: seq<RidershipRecord>, d: DayType): seq<ChartPoint> {
    seq(|recs|, i requires 0 <= i < |recs| => ChartPoint(TimeLabel(recs[i]), Ridership(recs[i], d)))
  }

  function ColorOf(n: Option<int>): Option<string> {
    if n.Some? then GetLineColor(n.value) else None
  }

  /** The dataset pushed for a selected bucket under key `k`. */
  function DatasetFor(k: string, w: Bucket, d: DayType): ChartDataset {
    ChartDataset(DisplayName(Number(k)), Number(k), ColorOf(Number(k)), Points(w.records, d))
  }

  /** The keys, in enumeration order, whose bucket is selected. */
  function SelectedKeys(agg: Aggregated, keys: seq<string>): seq<string> {
    Filter(keys, k => k in agg && agg[k].selected)
  }

  /**
   * `Object.entries(aggregated).forEach(...)` building the chart datasets; `keys` is the
   * object's key enumeration order.
   */
  function ChartDatasets(agg: Aggregated, keys: seq<string>, d: DayType): (r: seq<ChartDataset>)
    requires forall k :: k in keys ==> k in agg
    requires NoDuplicates(keys)
    ensures |r| == |SelectedKeys(agg, keys)|
    ensures forall j :: 0 <= j < |r| ==>
      r[j] == DatasetFor(SelectedKeys(agg, keys)[j], agg[SelectedKeys(agg, keys)[j]], d)
  {
    if |keys| == 0 then []
    else
      assert NoDuplicates(keys[1..]) by {
        forall i, j | 0 <= i < j < |keys| - 1 ensures keys[1..][i] != keys[1..][j] {
          assert keys[1..][i] == keys[i + 1] && keys[1..][j] == keys[j + 1];
        }
      }
      var rest := ChartDatasets(agg, keys[1..], d);
      if agg[keys[0]].selected then [DatasetFor(keys[0], agg[keys[0]], d)] + rest else rest
  }

  /**
   * Over the object's keys, there is one dataset per selected bucket and none for an
   * unselected one; a dataset has one point per record, in record order.
   */
  lemma ChartDatasetsSelectedOnly(agg: Aggregated, keys: seq<string>, d: DayType)
    requires forall k :: k in keys <==> k in agg
    requires NoDuplicates(keys)
    ensures forall k :: k in SelectedKeys(agg, keys) <==> k in agg && agg[k].selected
    ensures forall j :: 0 <= j < |ChartDatasets(agg, keys, d)| ==>
      |ChartDatasets(agg, keys, d)[j].data| == |agg[SelectedKeys(agg, keys)[j]].records|
    ensures forall j, i ::
      0 <= j < |ChartDatasets(agg, keys, d)| && 0 <= i < |agg[SelectedKeys(agg, keys)[j]].records| ==>
      ChartDatasets(agg, keys, d)[j].data[i] ==
        ChartPoint(TimeLabel(agg[SelectedKeys(agg, keys)[j]].records[i]),
          Ridership(agg[SelectedKeys(agg, keys)[j]].records[i], d))
  {
  }
}

=== FILE: calc.dfy ===
/**
 * Per-line metrics over a line's date-filtered records: the average (`calcAvg`) and the
 * absolute change between the chronologically first and last record (`calcAbsChange`).
 */
module Calc {
  import opened Optional
  import opened Sorting
  import opened DashboardTypes

  /** `records.reduce((prev, curr) => prev + (curr[dayOfWeek] ?? 0), 0)`. */
  function SumRidership(rs: seq<RidershipRecord>, d: DayType): int {
    if |rs| == 0 then 0 else SumRidership(rs[..|rs| - 1], d) + RidershipOrZero(rs[|rs| - 1], d)
  }

  lemma {:induction false} SumRidershipAppend(a: seq<RidershipRecord>, b: seq<RidershipRecord>, d: DayType)
    ensures SumRidership(a + b, d) == SumRidership(a, d) + SumRidership(b, d)
    decreases |b|
  {
    if |b| == 0 {
      assert a + b == a;
    } else {
      assert (a + b)[..|a + b| - 1] == a + b[..|b| - 1];
      SumRidershipAppend(a, b[..|b| - 1], d);
    }
  }

  /** Taking one record out of a sequence takes its value out of the sum. */
  lemma SumRidershipRemove(ys: seq<RidershipRecord>, j: int, d: DayType)
    requires 0 <= j < |ys|
    ensures SumRidership(ys, d) == SumRidership(ys[..j] + ys[j + 1..], d) + RidershipOrZero(ys[j], d)
    ensures multiset(ys[..j] + ys[j + 1..]) == multiset(ys) - multiset{ys[j]}
  {
    var x := ys[j];
    assert ys == ys[..j] + [x] + ys[j + 1..];
    SumRidershipAppend(ys[..j] + [x], ys[j + 1..], d);
    SumRidershipAppend(ys[..j], [x], d);
    SumRidershipAppend(ys[..j], ys[j + 1..], d);
    assert [x][..0] == [];
  }

  /** The sum does not depend on the order of the records. */
  lemma {:induction false} SumRidershipPermutation(xs: seq<RidershipRecord>, ys: seq<RidershipRecord>, d: DayType)
    requires multiset(xs) == multiset(ys)
    ensures SumRidership(xs, d) == SumRidership(ys, d)
    decreases |xs|
  {
    if |xs| == 0 {
      assert |ys| == |multiset(ys)| == 0;
    } else {
      var x := xs[|xs| - 1];
      var init := xs[..|xs| - 1];
      assert x in multiset(ys) by {
        assert x in multiset(xs);
      }
      var j :| 0 <= j < |ys| && ys[j] == x;
      var rest := ys[..j] + ys[j + 1..];
      assert multiset(init) == multiset(rest) by {
        assert xs == init + [x];
        assert multiset(init) == multiset(xs) - multiset{x};
        SumRidershipRemove(ys, j, d);
      }
      SumRidershipPermutation(init, rest, d);
      assert SumRidership(ys, d) == SumRidership(rest, d) + RidershipOrZero(x, d) by {
        SumRidershipRemove(ys, j, d);
      }
    }
  }

  /**
   * `calcAvg`: the sum (nulls read as 0) divided by the number of records, nulls included.
   * `None` is the `NaN` that `0 / 0` gives for an empty input.
   */
  function CalcAvg(rs: seq<RidershipRecord>, d: DayType): (r: Option<real>)
    ensures r.None? <==> |rs| == 0
    ensures r.Some? ==> r.value * (|rs| as real) == SumRidership(rs, d) as real
  {
    if |rs| == 0 then None else Some(SumRidership(rs, d) as real / (|rs| as real))
  }

  /** `a` is the average of the records: times their count it gives their sum (nulls as 0). */
  predicate IsAverageOf(a: Option<real>, rs: seq<RidershipRecord>, d: DayType) {
    a.Some? && a.value * (|rs| as real) == SumRidership(rs, d) as real
  }

  /** A record whose value is null still counts: it scales the average by `n / (n + 1)`. */
  lemma CalcAvgCountsNulls(rs: seq<RidershipRecord>, x: RidershipRecord, d: DayType)
    requires |rs| > 0
    requires Ridership(x, d).None?
    ensures CalcAvg(rs + [x], d).value * ((|rs| + 1) as real) == CalcAvg(rs, d).value * (|rs| as real)
  {
    SumRidershipAppend(rs, [x], d);
    assert SumRidership([x], d) == 0 by {
      assert [x][..0] == [];
    }
  }

  /** The average does not depend on the order of the records. */
  lemma CalcAvgPermutation(xs: seq<RidershipRecord>, ys: seq<RidershipRecord>, d: DayType)
    requires multiset(xs) == multiset(ys)
    ensures CalcAvg(xs, d) == CalcAvg(ys, d)
  {
    SumRidershipPermutation(xs, ys, d);
    assert |xs| == |multiset(xs)| == |multiset(ys)| == |ys|;
  }

  /** The comparator of `calcAbsChange`: by year, then by month within a year. */
  function ChronoCompare(a: RidershipRecord, b: RidershipRecord): int {
    if a.year == b.year then a.month - b.month else a.year - b.year
  }

  function ChronoLe(a: RidershipRecord, b: RidershipRecord): bool {
    ChronoCompare(a, b) <= 0
  }

  /** `ChronoLe` orders records exactly as their `new Date(year, month)` would for months 0 to 11. */
  lemma ChronoLeIsDateOrder(a: RidershipRecord, b: RidershipRecord)
    requires 0 <= a.month < 12 && 0 <= b.month < 12
    ensures ChronoLe(a, b) <==> MonthIndex(a.year, a.month) <= MonthIndex(b.year, b.month)
  {
  }

  lemma ChronoIsTotalPreorder()
    ensures TotalPreorder(ChronoLe)
  {
  }

  /** No two different records share a (year, month). */
  ghost predicate DistinctDates(rs: seq<RidershipRecord>) {
    forall x, y :: x in rs && y in rs && x.year == y.year && x.month == y.month ==> x == y
  }

  lemma DistinctDatesNoTies(rs: seq<RidershipRecord>)
    requires DistinctDates(rs)
    ensures NoTies(rs, ChronoLe)
  {
  }

  /**
   * `calcAbsChange`'s result: the change, and the content the caller's array holds
   * afterwards, since `metrics.sort(...)` sorts it in place.
   */
  datatype AbsChange = AbsChange(change: int, sorted: seq<RidershipRecord>)

  /**
   * `calcAbsChange`: sorts the records chronologically and subtracts the first value from
   * the last, each null read as 0. An empty input dereferences `undefined` and throws.
   */
  function CalcAbsChange(rs: seq<RidershipRecord>, d: DayType): (r: AbsChange)
    requires |rs| > 0
    ensures multiset(r.sorted) == multiset(rs) && |r.sorted| == |rs|
    ensures Sorted(r.sorted, ChronoLe)
    ensures forall x :: x in rs ==> ChronoLe(r.sorted[0], x) && ChronoLe(x, r.sorted[|rs| - 1])
    ensures r.change == RidershipOrZero(r.sorted[|rs| - 1], d) - RidershipOrZero(r.sorted[0], d)
  {
    ChronoIsTotalPreorder();
    SortBySorted(rs, ChronoLe);
    var sorted := SortBy(rs, ChronoLe);
    assert forall x :: x in rs ==> ChronoLe(sorted[0], x) && ChronoLe(x, sorted[|rs| - 1]) by {
      forall x | x in rs ensures ChronoLe(sorted[0], x) && ChronoLe(x, sorted[|rs| - 1]) {
        assert x in multiset(sorted);
        SortedEnds(sorted, ChronoLe, x);
      }
    }
    AbsChange(RidershipOrZero(sorted[|rs| - 1], d) - RidershipOrZero(sorted[0], d), sorted)
  }

  /** A single record shows no change. */
  lemma CalcAbsChangeSingle(x: RidershipRecord, d: DayType)
    ensures CalcAbsChange([x], d).change == 0
  {
  }

  /** Running `calcAbsChange` again on the array it sorted leaves the array as it is. */
  lemma CalcAbsChangeResort(rs: seq<RidershipRecord>, d: DayType)
    requires |rs| > 0
    ensures CalcAbsChange(CalcAbsChange(rs, d).sorted, d) == CalcAbsChange(rs, d)
  {
    var s := CalcAbsChange(rs, d).sorted;
    SortBySortedIdentity(s, ChronoLe);
  }

  /**
   * When no two records share a (year, month), the sorted content and the change do not
   * depend on the order the records come in.
   */
  lemma CalcAbsChangeOrderIndependent(xs: seq<RidershipRecord>, ys: seq<RidershipRecord>, d: DayType)
    requires |xs| > 0
    requires multiset(xs) == multiset(ys)
    requires DistinctDates(xs)
    ensures |ys| > 0
    ensures CalcAbsChange(xs, d) == CalcAbsChange(ys, d)
  {
    assert |ys| == |xs| by {
      assert |multiset(xs)| == |multiset(ys)|;
    }
    ChronoIsTotalPreorder();
    DistinctDatesNoTies(xs);
    SortByPermutationInvariant(xs, ys, ChronoLe);
  }

  function Reverse<T>(xs: seq<T>): (r: seq<T>)
    ensures |r| == |xs|
    ensures forall i :: 0 <= i < |xs| ==> r[i] == xs[|xs| - 1 - i]
  {
    if |xs| == 0 then [] else [xs[|xs| - 1]] + Reverse(xs[..|xs| - 1])
  }

  lemma {:induction false} ReverseMultiset<T>(xs: seq<T>)
    ensures multiset(Reverse(xs)) == multiset(xs)
  {
    if |xs| > 0 {
      ReverseMultiset(xs[..|xs| - 1]);
      assert xs == xs[..|xs| - 1] + [xs[|xs| - 1]];
    }
  }

  /** Reversing the input does not change the result (the internal sort undoes it). */
  lemma CalcAbsChangeReverse(xs: seq<RidershipRecord>, d: DayType)
    requires |xs| > 0
    requires DistinctDates(xs)
    ensures CalcAbsChange(Reverse(xs), d).change == CalcAbsChange(xs, d).change
  {
    ReverseMultiset(xs);
    CalcAbsChangeOrderIndependent(xs, Reverse(xs), d);
  }
}

=== FILE: catalog.dfy ===
/**
 * The line catalogue: the fixed table of lettered (rail and busway) lines, display names,
 * colours, and the comparator that orders lines by name.
 */
module Catalog {
  import opened Optional
  import opened Text
  import opened Sorting
  import opened DashboardTypes

  /** An entry of `definedLines`. */
  datatype DefinedLine = DefinedLine(number: int, letter: string, former: Option<string>, color: string)

  /**
   * `definedLines`. The table without the `former` field (the older catalogue copy)
   * has the same numbers, letters and colours.
   */
  const DefinedLines: seq<DefinedLine> := [
    DefinedLine(801, "A", Some("Blue"), "#0072bc"),
    DefinedLine(802, "B", Some("Red"), "#eb131b"),
    DefinedLine(803, "C", Some("Green"), "#58a738"),
    DefinedLine(804, "E", Some("Expo"), "#fdb913"),
    DefinedLine(805, "D", Some("Purple"), "#a05da5"),
    DefinedLine(806, "L", Some("Gold"), "#f9a825"),
    DefinedLine(807, "K", None, "#e56db1"),
    DefinedLine(901, "G", None, "#fc4c02"),
    DefinedLine(910, "J", Some("Silver"), "#adB8bf")
  ]

  predicate IsDefined(n: int) {
    exists i :: 0 <= i < |DefinedLines| && DefinedLines[i].number == n
  }

  /** `table.findIndex((line) => line.number === n)`: the first position with that number, or -1. */
  function FindIndex(table: seq<DefinedLine>, n: int): (k: int)
    ensures -1 <= k < |table|
    ensures k >= 0 ==> table[k].number == n && forall j :: 0 <= j < k ==> table[j].number != n
    ensures k == -1 ==> forall j :: 0 <= j < |table| ==> table[j].number != n
  {
    if |table| == 0 then -1
    else if table[0].number == n then 0
    else
      var k := FindIndex(table[1..], n);
      if k == -1 then -1 else k + 1
  }

  /** `table.find((line) => line.number === n)`: the first entry with that number. */
  function FindIn(table: seq<DefinedLine>, n: int): (r: Option<DefinedLine>)
    ensures r.None? <==> forall i :: 0 <= i < |table| ==> table[i].number != n
    ensures r.Some? ==> r.value.number == n && r.value == table[FindIndex(table, n)]
  {
    var k := FindIndex(table, n);
    if k == -1 then None else Some(table[k])
  }

  /** The numbers in `definedLines` are pairwise distinct, and so are the letters. */
  lemma DefinedLinesDistinct()
    ensures forall i, j :: 0 <= i < j < |DefinedLines| ==> DefinedLines[i].number != DefinedLines[j].number
    ensures forall i, j :: 0 <= i < j < |DefinedLines| ==> DefinedLines[i].letter != DefinedLines[j].letter
  {
  }

  /** Because numbers are distinct, `find` returns the one entry carrying the number. */
  lemma FindDefinedIsEntry(i: int)
    requires 0 <= i < |DefinedLines|
    ensures FindIn(DefinedLines, DefinedLines[i].number) == Some(DefinedLines[i])
  {
    DefinedLinesDistinct();
  }

  /** The `{ current, former? }` result of `getLineNames`. */
  datatype LineNames = LineNames(current: string, former: Option<string>)

  /** `getLineNames(number)`. */
  function GetLineNames(n: int): (r: LineNames)
    ensures forall i :: 0 <= i < |DefinedLines| && DefinedLines[i].number == n ==>
      r.current == DefinedLines[i].letter + " Line" &&
      r.former == (if DefinedLines[i].former.Some? then Some(DefinedLines[i].former.value + " Line") else None)
    ensures !IsDefined(n) ==> r.current == "Line " + IntToString(n) && r.former.None?
  {
    DefinedLinesDistinct();
    match FindIn(DefinedLines, n)
    case Some(line) =>
      LineNames(line.letter + " Line",
        if line.former.Some? && |line.former.value| > 0 then Some(line.former.value + " Line") else None)
    case None => LineNames("Line " + IntToString(n), None)
  }

  /** `getLineName(number)` of the catalogue copy without former names. */
  function GetLineName(n: int): (r: string)
    ensures forall i :: 0 <= i < |DefinedLines| && DefinedLines[i].number == n ==>
      r == DefinedLines[i].letter + " Line"
    ensures !IsDefined(n) ==> r == "Line " + IntToString(n)
  {
    DefinedLinesDistinct();
    match FindIn(DefinedLines, n)
    case Some(line) => line.letter + " Line"
    case None => "Line " + IntToString(n)
  }

  /** `getLineName(Number(lineName))`: a `NaN` number finds no entry and prints as `Line NaN`. */
  function DisplayName(n: Option<int>): string {
    match n
    case Some(v) => GetLineName(v)
    case None => "Line NaN"
  }

  /** Both catalogue copies give every number the same current name. */
  lemma CurrentNameAgrees(n: int)
    ensures GetLineNames(n).current == GetLineName(n)
  {
  }

  lemma LetteredName(n: int)
    requires IsDefined(n)
    ensures exists i :: 0 <= i < |DefinedLines| && GetLineName(n) == DefinedLines[i].letter + " Line"
    ensures |GetLineName(n)| == 6 && GetLineName(n)[1] == ' '
  {
    var i :| 0 <= i < |DefinedLines| && DefinedLines[i].number == n;
    assert |DefinedLines[i].letter| == 1;
  }

  lemma NumberedName(n: int)
    requires !IsDefined(n)
    ensures GetLineName(n) == "Line " + IntToString(n)
    ensures GetLineName(n)[..4] == "Line" && GetLineName(n)[5..] == IntToString(n)
  {
  }

  /** A defined number's name does not start with `Line`; any other number's does. */
  lemma NamePrefix(n: int)
    ensures IsDefined(n) <==> !StartsWith(GetLineName(n), "Line")
  {
    if IsDefined(n) {
      LetteredName(n);
      assert "Line"[1] == 'i';
    } else {
      NumberedName(n);
    }
  }

  /** Distinct numbers get distinct display names. */
  lemma GetLineNameInjective(a: int, b: int)
    requires GetLineName(a) == GetLineName(b)
    ensures a == b
  {
    NamePrefix(a);
    NamePrefix(b);
    if IsDefined(a) && IsDefined(b) {
      LetteredBothSame(a, b);
    } else if !IsDefined(a) && !IsDefined(b) {
      NumberedName(a);
      NumberedName(b);
      IntToStringInjective(a, b);
    }
  }

  lemma LetteredBothSame(a: int, b: int)
    requires IsDefined(a) && IsDefined(b)
    requires GetLineName(a) == GetLineName(b)
    ensures a == b
  {
    var i :| 0 <= i < |DefinedLines| && DefinedLines[i].number == a;
    var j :| 0 <= j < |DefinedLines| && DefinedLines[j].number == b;
    SuffixCancel(DefinedLines[i].letter, DefinedLines[j].letter, " Line");
    LetterDeterminesEntry(i, j);
  }

  lemma SuffixCancel(x: string, y: string, s: string)
    requires x + s == y + s
    ensures x == y
  {
    assert x == (x + s)[..|x|];
  }

  /** Every letter is a single upper-case character. */
  lemma LetterShape(i: int)
    requires 0 <= i < |DefinedLines|
    ensures |DefinedLines[i].letter| == 1 && 'A' <= DefinedLines[i].letter[0] <= 'Z'
  {
  }

  lemma LetterDeterminesEntry(i: int, j: int)
    requires 0 <= i < |DefinedLines| && 0 <= j < |DefinedLines|
    requires DefinedLines[i].letter == DefinedLines[j].letter
    ensures i == j
  {
    DefinedLinesDistinct();
  }

  /** A `#` followed by six hexadecimal digits. */
  predicate IsHexColor(c: string) {
    |c| == 7 && c[0] == '#' &&
    forall i :: 1 <= i < 7 ==> IsDigit(c[i]) || 'a' <= c[i] <= 'f' || 'A' <= c[i] <= 'F'
  }

  /** Every colour of the table is a `#rrggbb` code. */
  lemma DefinedColorsHex()
    ensures forall i :: 0 <= i < |DefinedLines| ==> IsHexColor(DefinedLines[i].color)
  {
  }

  /**
   * The `definedLines` branch of `getLineColor`: the entry's colour, or `None` where
   * `getLineColor` falls back to a random colour.
   */
  function GetLineColor(n: int): (r: Option<string>)
    ensures r.Some? <==> IsDefined(n)
    ensures r.Some? ==> IsHexColor(r.value)
    ensures forall i :: 0 <= i < |DefinedLines| && DefinedLines[i].number == n ==> r == Some(DefinedLines[i].color)
  {
    DefinedLinesDistinct();
    DefinedColorsHex();
    match FindIn(DefinedLines, n)
    case Some(line) => Some(line.color)
    case None => None
  }

  /** `lineNameSortFunction`: lettered names first, numbered names by id, lettered names alphabetically. */
  function LineNameCompare(a: Line, b: Line): int {
    var numberedA := StartsWith(a.name, "Line");
    var numberedB := StartsWith(b.name, "Line");
    if numberedA && !numberedB then 1
    else if !numberedA && numberedB then -1
    else if numberedA && numberedB then a.id - b.id
    else if LexLess(a.name, b.name) then -1
    else if LexLess(b.name, a.name) then 1
    else 0
  }

  /** The order `Array.prototype.sort(lineNameSortFunction)` respects. */
  function LineNameLe(a: Line, b: Line): bool {
    LineNameCompare(a, b) <= 0
  }

  /** Swapping the arguments flips the comparator's sign. */
  lemma LineNameCompareAntisymmetric(a: Line, b: Line)
    ensures LineNameCompare(a, b) < 0 <==> LineNameCompare(b, a) > 0
    ensures LineNameCompare(a, b) == 0 <==> LineNameCompare(b, a) == 0
  {
    LexLessAsymmetric(a.name, b.name);
  }

  /** The comparator puts equal only names that are equal or both numbered with the same id. */
  lemma LineNameCompareZero(a: Line, b: Line)
    requires LineNameCompare(a, b) == 0
    ensures a.name == b.name || (StartsWith(a.name, "Line") && StartsWith(b.name, "Line") && a.id == b.id)
  {
    LexLessTotal(a.name, b.name);
  }

  /** `lineNameSortFunction` is a valid total preorder for sorting. */
  lemma LineNameOrderIsTotalPreorder()
    ensures TotalPreorder(LineNameLe)
  {
    forall a, b ensures LineNameLe(a, b) || LineNameLe(b, a) {
      LineNameCompareAntisymmetric(a, b);
    }
    forall a, b, c | LineNameLe(a, b) && LineNameLe(b, c) ensures LineNameLe(a, c) {
      LineNameLeTransitive(a, b, c);
    }
  }

  lemma LineNameLeTransitive(a: Line, b: Line, c: Line)
    requires LineNameLe(a, b) && LineNameLe(b, c)
    ensures LineNameLe(a, c)
  {
    var na, nb, nc := StartsWith(a.name, "Line"), StartsWith(b.name, "Line"), StartsWith(c.name, "Line");
    if !na && !nb && !nc {
      LexLessAsymmetric(a.name, b.name);
      LexLessAsymmetric(b.name, c.name);
      LexLessAsymmetric(a.name, c.name);
      if LexLess(c.name, a.name) {
        LexLessTotal(a.name, b.name);
        if LexLess(a.name, b.name) {
          LexLessTransitive(c.name, a.name, b.name);
        }
      }
    }
  }
}

=== FILE: charts_page.dfy ===
/**
 * The older charts page: the year choices, and on submit the records of the chosen lines
 * and year grouped by line name and turned into one dataset of monthly points per line.
 */
module ChartsPage {
  import opened Optional
  import opened Seqs
  import opened Text
  import opened DashboardTypes
  import opened MetricsPage

  const StartYear: int := 2009
  const EndYear: int := 2024

  /** The year options: every year from `StartYear` to `EndYear`, pushed in a counting loop. */
  method YearChoices() returns (years: seq<int>)
    ensures |years| == EndYear - StartYear + 1
    ensures forall i :: 0 <= i < |years| ==> years[i] == StartYear + i
    ensures forall y :: y in years <==> StartYear <= y <= EndYear
    ensures forall i, j :: 0 <= i < j < |years| ==> years[i] < years[j]
  {
    years := [];
    var i := StartYear;
    while i <= EndYear
      invariant StartYear <= i <= EndYear + 1
      invariant |years| == i - StartYear
      invariant forall j :: 0 <= j < |years| ==> years[j] == StartYear + j
    {
      years := years + [i];
      i := i + 1;
    }
    forall y | StartYear <= y <= EndYear ensures y in years {
      assert years[y - StartYear] == y;
    }
  }

  /** A plain object from line name to the records pushed under it. */
  type Grouped = map<string, seq<RidershipRecord>>

  /**
   * The `onSubmit` loop as a fold over the records: a record that passes `keep` is pushed
   * under its line name, the entry being created by the first such record.
   */
  function Group(recs: seq<RidershipRecord>, keep: RidershipRecord -> bool): Grouped {
    if |recs| == 0 then map[]
    else
      var prev := Group(recs[..|recs| - 1], keep);
      var x := recs[|recs| - 1];
      if !keep(x) then prev
      else if x.lineName in prev then prev[x.lineName := prev[x.lineName] + [x]]
      else prev[x.lineName := [x]]
  }

  function KeptOf(keep: RidershipRecord -> bool, k: string): RidershipRecord -> bool {
    x => keep(x) && x.lineName == k
  }

  ghost predicate HasKept(recs: seq<RidershipRecord>, keep: RidershipRecord -> bool, k: string) {
    exists i :: 0 <= i < |recs| && keep(recs[i]) && recs[i].lineName == k
  }

  /** The entries a correct grouping has: one per kept name, holding that name's kept records in order. */
  ghost predicate GroupedBy(r: Grouped, recs: seq<RidershipRecord>, keep: RidershipRecord -> bool) {
    (forall k :: k in r <==> HasKept(recs, keep, k)) &&
    (forall k :: k in r ==> r[k] == Filter(recs, KeptOf(keep, k)) && |r[k]| > 0)
  }

  lemma HasKeptSnoc(init: seq<RidershipRecord>, x: RidershipRecord, keep: RidershipRecord -> bool, k: string)
    ensures HasKept(init + [x], keep, k) <==> HasKept(init, keep, k) || (keep(x) && x.lineName == k)
  {
    var recs := init + [x];
    if HasKept(recs, keep, k) && !(keep(x) && x.lineName == k) {
      var i :| 0 <= i < |recs| && keep(recs[i]) && recs[i].lineName == k;
      assert recs[i] == init[i];
    }
    if HasKept(init, keep, k) {
      var i :| 0 <= i < |init| && keep(init[i]) && init[i].lineName == k;
      assert recs[i] == init[i];
    }
    if keep(x) && x.lineName == k {
      assert recs[|init|] == x;
    }
  }

  /** The grouping is correct for every input. */
  lemma {:induction false} GroupGroups(recs: seq<RidershipRecord>, keep: RidershipRecord -> bool)
    ensures GroupedBy(Group(recs, keep), recs, keep)
  {
    if |recs| > 0 {
      var init := recs[..|recs| - 1];
      var x := recs[|recs| - 1];
      SplitLast(recs);
      GroupGroups(init, keep);
      forall k ensures
        var r := Group(init + [x], keep);
        (k in r <==> HasKept(init + [x], keep, k)) &&
        (k in r ==> r[k] == Filter(init + [x], KeptOf(keep, k)) && |r[k]| > 0)
      {
        GroupStepAt(init, x, keep, k);
      }
    }
  }

  lemma GroupStepAt(init: seq<RidershipRecord>, x: RidershipRecord, keep: RidershipRecord -> bool, k: string)
    requires GroupedBy(Group(init, keep), init, keep)
    ensures var r := Group(init + [x], keep);
      (k in r <==> HasKept(init + [x], keep, k)) &&
      (k in r ==> r[k] == Filter(init + [x], KeptOf(keep, k)) && |r[k]| > 0)
  {
    var prev := Group(init, keep);
    GroupUnfold(init, x, keep);
    HasKeptSnoc(init, x, keep, k);
    FilterSnoc(init, x, KeptOf(keep, k));
    var p := KeptOf(keep, k);
    if keep(x) && x.lineName == k {
      if k in prev {
        assert Group(init + [x], keep)[k] == prev[k] + [x];
      } else {
        assert !HasKept(init, keep, k);
        assert Filter(init, p) == [];
      }
    } else {
      assert !p(x);
      if k in Group(init + [x], keep) {
        assert Group(init + [x], keep)[k] == prev[k];
      }
    }
  }

  /** One step of the fold, stated without unfolding the rest of it. */
  lemma GroupUnfold(init: seq<RidershipRecord>, x: RidershipRecord, keep: RidershipRecord -> bool)
    ensures var prev := Group(init, keep);
      Group(init + [x], keep) ==
        if !keep(x) then prev
        else if x.lineName in prev then prev[x.lineName := prev[x.lineName] + [x]]
        else prev[x.lineName := [x]]
  {
    var recs := init + [x];
    assert recs[..|recs| - 1] == init;
    assert recs[|recs| - 1] == x;
  }

  /**
   * The groups partition the kept records: each kept record occurs in its line's group as
   * often as in the input, and a group holds nothing else.
   */
  lemma GroupPartition(recs: seq<RidershipRecord>, keep: RidershipRecord -> bool, x: RidershipRecord)
    ensures var r := Group(recs, keep);
      multiset(Filter(recs, keep))[x] == (if x.lineName in r then multiset(r[x.lineName])[x] else 0)
    ensures var r := Group(recs, keep);
      forall k :: k in r && x in r[k] ==> k == x.lineName && keep(x)
  {
    GroupGroups(recs, keep);
    var r := Group(recs, keep);
    FilterMultiset(recs, keep);
    if keep(x) {
      if x.lineName in r {
        FilterMultiset(recs, KeptOf(keep, x.lineName));
      } else {
        assert forall i :: 0 <= i < |recs| ==> recs[i] != x;
      }
    } else {
      assert x !in Filter(recs, keep);
      if x.lineName in r {
        assert x !in r[x.lineName];
      }
    }
  }

  /** `{ month: metric.month, stat: metric[formData.stat] }`. */
  datatype MonthPoint = MonthPoint(month: int, stat: Option<int>)

  /** `{ data, label: `Line ${line}` }`. */
  datatype LineDataset = LineDataset(legend: string, data: seq<MonthPoint>)

  function PointsOf(recs: seq<RidershipRecord>, stat: DayType): seq<MonthPoint> {
    seq(|recs|, i requires 0 <= i < |recs| => MonthPoint(recs[i].month, Ridership(recs[i], stat)))
  }

  /**
   * `Object.entries(aggregated).forEach(...)`: one dataset per key, in the object's key
   * order `keys`.
   */
  function Datasets(agg: Grouped, keys: seq<string>, stat: DayType): seq<LineDataset>
    requires forall k :: k in keys ==> k in agg
    requires NoDuplicates(keys)
  {
    seq(|keys|, i requires 0 <= i < |keys| => LineDataset("Line " + keys[i], PointsOf(agg[keys[i]], stat)))
  }

  /** `onSubmit`: group the chosen records and build the datasets. */
  function Submit(recs: seq<RidershipRecord>, chosenLines: seq<string>, year: string, keys: seq<string>, stat: DayType): seq<LineDataset>
    requires forall k :: k in keys <==> k in Group(recs, ChosenOf(chosenLines, year))
    requires NoDuplicates(keys)
  {
    Datasets(Group(recs, ChosenOf(chosenLines, year)), keys, stat)
  }

  /**
   * There is one dataset for each chosen line name that has a record in the chosen year,
   * labelled `Line <name>`, holding one point per chosen record of that line in data order.
   */
  lemma SubmitDatasets(recs: seq<RidershipRecord>, chosenLines: seq<string>, year: string, keys: seq<string>, stat: DayType)
    requires forall k :: k in keys <==> k in Group(recs, ChosenOf(chosenLines, year))
    requires NoDuplicates(keys)
    ensures var r := Submit(recs, chosenLines, year, keys, stat);
      |r| == |keys| &&
      forall i :: 0 <= i < |keys| ==>
        && r[i].legend == "Line " + keys[i]
        && r[i].data == PointsOf(Filter(recs, KeptOf(ChosenOf(chosenLines, year), keys[i])), stat)
        && |r[i].data| > 0
    ensures forall k :: k in keys <==>
      exists i :: 0 <= i < |recs| && Chosen(recs[i], chosenLines, year) && recs[i].lineName == k
  {
    GroupGroups(recs, ChosenOf(chosenLines, year));
  }
}

=== FILE: checkbox.dfy ===
/**
 * The older checkbox line selector: clicking a line adds its id to the chosen list or
 * removes it, a box is ticked when its id is in the list, and each line is labelled by
 * mode.
 */
module CheckboxSelector {
  import opened Optional
  import opened Seqs
  import opened Text
  import opened DashboardTypes
  import opened Catalog

  /** The click handler: remove the id at its first position if present, otherwise push it. */
  function Toggle(value: seq<string>, id: string): (r: seq<string>)
    ensures id !in value ==> r == value + [id]
    ensures id in value ==> |r| == |value| - 1 && multiset(r) == multiset(value) - multiset{id}
    ensures id in value ==> SubsequenceOf(r, value)
  {
    if id in value then
      var pos := IndexOf(value, id);
      assert value == value[..pos] + [id] + value[pos + 1..];
      SpliceOneSubsequence(value, pos);
      value[..pos] + value[pos + 1..]
    else value + [id]
  }

  /** `checked={value.includes(id)}`. */
  predicate Checked(value: seq<string>, id: string) {
    id in value
  }

  /**
   * On a list without duplicates a click flips the clicked box, leaves every other box
   * as it was, and keeps the list free of duplicates.
   */
  lemma ToggleMembership(value: seq<string>, id: string)
    requires NoDuplicates(value)
    ensures NoDuplicates(Toggle(value, id))
    ensures Checked(Toggle(value, id), id) <==> !Checked(value, id)
    ensures forall x :: x != id ==> (Checked(Toggle(value, id), x) <==> Checked(value, x))
  {
    var r := Toggle(value, id);
    if id in value {
      var pos := IndexOf(value, id);
      assert r == value[..pos] + value[pos + 1..];
      forall i, j | 0 <= i < j < |r| ensures r[i] != r[j] {
        var i' := if i < pos then i else i + 1;
        var j' := if j < pos then j else j + 1;
        assert r[i] == value[i'] && r[j] == value[j'];
      }
      assert multiset(r)[id] == 0 by {
        assert multiset(value)[id] == 1 by {
          NoDuplicatesCount(value, pos);
        }
      }
      forall x | x != id ensures x in r <==> x in value {
        assert multiset(r)[x] == multiset(value)[x];
      }
    } else {
      forall i, j | 0 <= i < j < |r| ensures r[i] != r[j] {
        if j == |value| {
          assert r[i] in value;
        }
      }
    }
  }

  lemma {:induction false} NoDuplicatesCount(value: seq<string>, pos: int)
    requires NoDuplicates(value) && 0 <= pos < |value|
    ensures multiset(value)[value[pos]] == 1
  {
    var id := value[pos];
    assert value == value[..pos] + [id] + value[pos + 1..];
    assert id !in value[..pos] by {
      forall i | 0 <= i < pos ensures value[..pos][i] != id {
        assert value[i] != value[pos];
      }
    }
    assert id !in value[pos + 1..] by {
      forall i | pos + 1 <= i < |value| ensures value[i] != id {
        assert value[i] != value[pos];
      }
    }
  }

  /** Ticking a new box and unticking it again restores the exact list. */
  lemma ToggleAppendRemove(value: seq<string>, id: string)
    requires id !in value
    ensures Toggle(Toggle(value, id), id) == value
  {
    var once := value + [id];
    assert IndexOf(once, id) == |value| by {
      assert once[|value|] == id;
      assert forall j :: 0 <= j < |value| ==> once[j] != id;
    }
    assert once[..|value|] == value;
  }

  /** `railLetters`: the rail line numbers with a letter. */
  const RailLetters: map<int, string> :=
    map[801 := "A", 802 := "B", 803 := "C", 804 := "E", 805 := "D", 806 := "L", 807 := "K"]

  /**
   * The label: `Line <n>` for a bus, `<letter> Line` for a rail line (the letter is the
   * text `undefined` when the number has none), and empty for any other mode.
   */
  function CheckboxLabel(l: LineJson): string {
    match l.mode
    case Bus => "Line " + IntToString(l.line)
    case Rail => (if l.line in RailLetters then RailLetters[l.line] else "undefined") + " Line"
    case OtherMode(_) => ""
  }

  /**
   * The labels agree with the catalogue's display names for buses outside the lettered
   * table and for the lettered rail lines 801 to 807; a rail line without a letter is
   * labelled `undefined Line`.
   */
  lemma LabelAgreesWithCatalog(l: LineJson)
    ensures l.mode == Bus && !IsDefined(l.line) ==> CheckboxLabel(l) == GetLineName(l.line)
    ensures l.mode == Rail && 801 <= l.line <= 807 ==> CheckboxLabel(l) == GetLineName(l.line)
    ensures l.mode == Rail && !(801 <= l.line <= 807) ==> CheckboxLabel(l) == "undefined Line"
  {
    if l.mode == Rail && 801 <= l.line <= 807 {
      var i := l.line - 801;
      assert DefinedLines[i].number == l.line;
      assert DefinedLines[i].letter == RailLetters[l.line];
    }
  }
}

=== FILE: columns.dfy ===
/**
 * The line table's column-sort state machine, shared by the three line-selector
 * components: each column header carries a sort direction, a click cycles the clicked
 * column and switches every other column off, and the rows are ordered by the active
 * columns the way `lodash.orderBy` orders them.
 */
module Columns {
  import opened Optional
  import opened Seqs
  import opened Text
  import opened Sorting
  import opened DashboardTypes

  /** `'asc' | 'desc' | false`. */
  datatype SortDirection = Off | Asc | Desc

  /** The `Line` property a column reads. */
  datatype ColumnKey =
    | IdKey | SelectedKey | NameKey | AverageKey | ChangeKey | StartingKey | EndingKey | OverTimeKey

  datatype Align = AlignLeft | AlignCenter | AlignRight

  /** `ColumnHeaderState`; `title` is its `label`. */
  datatype ColumnHeader = ColumnHeader(title: string, key: ColumnKey, align: Option<Align>, direction: SortDirection)

  /** The initial columns of the current line selector. */
  const SelectorColumns: seq<ColumnHeader> := [
    ColumnHeader("", IdKey, Some(AlignRight), Off),
    ColumnHeader("Selected", SelectedKey, Some(AlignCenter), Off),
    ColumnHeader("Line", NameKey, Some(AlignLeft), Off),
    ColumnHeader("Avg. Ridership", AverageKey, Some(AlignRight), Off),
    ColumnHeader("Change", ChangeKey, Some(AlignRight), Off),
    ColumnHeader("Starting Ridership", StartingKey, Some(AlignRight), Off),
    ColumnHeader("Ending Ridership", EndingKey, Some(AlignRight), Off),
    ColumnHeader("Ridership over time", OverTimeKey, Some(AlignLeft), Off)
  ]

  /** The initial columns of the older selector with CSV export. */
  const LegacySelectorColumns: seq<ColumnHeader> := [
    ColumnHeader("", IdKey, None, Off),
    ColumnHeader("Selected", SelectedKey, None, Off),
    ColumnHeader("Line", NameKey, None, Off),
    ColumnHeader("Avg. Ridership", AverageKey, None, Off),
    ColumnHeader("Change", ChangeKey, None, Off),
    ColumnHeader("Starting Ridership", StartingKey, None, Off),
    ColumnHeader("Current Ridership", EndingKey, None, Off),
    ColumnHeader("Ridership over time", OverTimeKey, None, Off)
  ]

  /** The initial columns of the metro line selector. */
  const MetroSelectorColumns: seq<ColumnHeader> := [
    ColumnHeader("", IdKey, None, Off),
    ColumnHeader("Selected", SelectedKey, None, Off),
    ColumnHeader("Line", NameKey, None, Off),
    ColumnHeader("Avg. Daily Ridership", AverageKey, None, Off),
    ColumnHeader("Change", ChangeKey, None, Off),
    ColumnHeader("Ridership over time", OverTimeKey, None, Off)
  ]

  /** `toggleSortDirection`: off, then ascending, then descending, then off again. */
  function ToggleSortDirection(s: SortDirection): (r: SortDirection)
    ensures r != s
  {
    match s
    case Off => Asc
    case Asc => Desc
    case Desc => Off
  }

  /** Three clicks bring a direction back, and no fewer do. */
  lemma ToggleSortDirectionCycle(s: SortDirection)
    ensures ToggleSortDirection(ToggleSortDirection(ToggleSortDirection(s))) == s
    ensures ToggleSortDirection(ToggleSortDirection(s)) != s
    ensures {ToggleSortDirection(s), ToggleSortDirection(ToggleSortDirection(s)), s} == {Off, Asc, Desc}
  {
  }

  /** The position of the first column with the key, or -1. */
  function FindColumn(cols: seq<ColumnHeader>, key: ColumnKey): (k: int)
    ensures -1 <= k < |cols|
    ensures k >= 0 ==> cols[k].key == key && forall j :: 0 <= j < k ==> cols[j].key != key
    ensures k == -1 ==> forall j :: 0 <= j < |cols| ==> cols[j].key != key
  {
    FindFirst(cols, (c: ColumnHeader) => c.key == key)
  }

  /** Only sort directions differ. */
  predicate SameColumns(a: seq<ColumnHeader>, b: seq<ColumnHeader>) {
    |a| == |b| &&
    forall i :: 0 <= i < |a| ==> a[i].title == b[i].title && a[i].key == b[i].key && a[i].align == b[i].align
  }

  predicate AtMostOneActive(cols: seq<ColumnHeader>) {
    forall i, j :: 0 <= i < j < |cols| && cols[i].direction != Off ==> cols[j].direction == Off
  }

  /**
   * `onSortLabelClick`: the first column with the key gets the next direction and every
   * other column is switched off; an unknown key changes nothing.
   */
  function OnSortLabelClick(cols: seq<ColumnHeader>, key: ColumnKey): (r: seq<ColumnHeader>)
    ensures SameColumns(r, cols)
    ensures FindColumn(cols, key) == -1 ==> r == cols
    ensures var k := FindColumn(cols, key);
      k >= 0 ==>
        && r[k].direction == ToggleSortDirection(cols[k].direction)
        && forall i :: 0 <= i < |cols| && i != k ==> r[i].direction == Off
  {
    var k := FindColumn(cols, key);
    if k == -1 then cols
    else
      seq(|cols|, i requires 0 <= i < |cols| =>
        cols[i].(direction := if i == k then ToggleSortDirection(cols[k].direction) else Off))
  }

  /** After any click at most one column is active, if that held before. */
  lemma ClickKeepsOneActive(cols: seq<ColumnHeader>, key: ColumnKey)
    requires FindColumn(cols, key) >= 0 || AtMostOneActive(cols)
    ensures AtMostOneActive(OnSortLabelClick(cols, key))
  {
  }

  /** Clicking the same header three times from a state where only it may be active restores the state. */
  lemma ClickThriceRestores(cols: seq<ColumnHeader>, key: ColumnKey)
    requires forall i :: 0 <= i < |cols| && i != FindColumn(cols, key) ==> cols[i].direction == Off
    ensures OnSortLabelClick(OnSortLabelClick(OnSortLabelClick(cols, key), key), key) == cols
  {
    var once := OnSortLabelClick(cols, key);
    var twice := OnSortLabelClick(once, key);
    var k := FindColumn(cols, key);
    if k >= 0 {
      SameKeysSameColumn(cols, once, key);
      SameKeysSameColumn(cols, twice, key);
      ToggleSortDirectionCycle(cols[k].direction);
    }
  }

  lemma {:induction false} SameKeysSameColumn(a: seq<ColumnHeader>, b: seq<ColumnHeader>, key: ColumnKey)
    requires SameColumns(a, b)
    ensures FindColumn(a, key) == FindColumn(b, key)
  {
    if |a| > 0 && a[0].key != key {
      SameKeysSameColumn(a[1..], b[1..], key);
    }
  }

  // ---------------------------------------------------------------- ordering rows

  /** A property value as `lodash` compares it; `Undef` is `undefined`. */
  datatype SortValue = Num(x: real) | Str(s: string) | Undef

  function OptionalNumber(v: Option<int>): SortValue {
    if v.Some? then Num(v.value as real) else Undef
  }

  /** `line[key]`; `ridershipOverTime` is never set on a line, and booleans compare as 0 and 1. */
  function ColumnValue(l: Line, key: ColumnKey): SortValue {
    match key
    case IdKey => Num(l.id as real)
    case SelectedKey => Num(if l.selected then 1.0 else 0.0)
    case NameKey => Str(l.name)
    case AverageKey => if l.averageRidership.Some? then Num(l.averageRidership.value) else Undef
    case ChangeKey => OptionalNumber(l.changeInRidership)
    case StartingKey => OptionalNumber(l.startingRidership)
    case EndingKey => OptionalNumber(l.endingRidership)
    case OverTimeKey => Undef
  }

  /**
   * `lodash`'s `compareAscending`: `undefined` after every defined value, numbers by
   * value, strings by `LexLess`. A column never mixes numbers and strings; the order
   * between the two kinds is fixed only to keep the relation total.
   */
  function CompareAscending(a: SortValue, b: SortValue): (c: int)
    ensures -1 <= c <= 1
    ensures a.Undef? && b.Undef? ==> c == 0
    ensures !a.Undef? && b.Undef? ==> c == -1
    ensures a.Undef? && !b.Undef? ==> c == 1
    ensures a.Num? && b.Num? ==> (c < 0 <==> a.x < b.x) && (c == 0 <==> a.x == b.x)
    ensures a.Str? && b.Str? ==> (c < 0 <==> LexLess(a.s, b.s)) && (c == 0 <==> a.s == b.s)
  {
    match (a, b)
    case (Undef, Undef) => 0
    case (Undef, _) => 1
    case (_, Undef) => -1
    case (Num(x), Num(y)) => if x > y then 1 else if x < y then -1 else 0
    case (Str(s), Str(t)) =>
      LexLessAsymmetric(s, t);
      LexLessTotal(s, t);
      LexLessIrreflexive(s);
      if LexLess(t, s) then 1 else if LexLess(s, t) then -1 else 0
    case (Num(_), Str(_)) => -1
    case (Str(_), Num(_)) => 1
  }

  lemma CompareAscendingAntisymmetric(a: SortValue, b: SortValue)
    ensures CompareAscending(a, b) == -CompareAscending(b, a)
    ensures CompareAscending(a, b) == 0 <==> a == b
  {
    if a.Str? && b.Str? {
      LexLessAsymmetric(a.s, b.s);
      LexLessTotal(a.s, b.s);
      if a == b {
        LexLessIrreflexive(a.s);
      }
    }
  }

  lemma CompareAscendingTransitive(a: SortValue, b: SortValue, c: SortValue)
    requires CompareAscending(a, b) <= 0 && CompareAscending(b, c) <= 0
    ensures CompareAscending(a, c) <= 0
  {
    CompareAscendingAntisymmetric(a, b);
    CompareAscendingAntisymmetric(b, c);
    CompareAscendingAntisymmetric(a, c);
    if a.Str? && b.Str? && c.Str? && a != b && b != c {
      LexLessTransitive(a.s, b.s, c.s);
      LexLessAsymmetric(a.s, c.s);
    }
  }

  /** One column's comparison, negated for a descending column as `orderBy` does. */
  function ColumnCompare(col: ColumnHeader, a: Line, b: Line): int {
    var c := CompareAscending(ColumnValue(a, col.key), ColumnValue(b, col.key));
    if col.direction == Desc then -c else c
  }

  /** `compareMultiple`: the first active column that tells the lines apart decides. */
  function CompareBy(active: seq<ColumnHeader>, a: Line, b: Line): int {
    if |active| == 0 then 0
    else
      var c := ColumnCompare(active[0], a, b);
      if c != 0 then c else CompareBy(active[1..], a, b)
  }

  lemma {:induction false} CompareByAntisymmetric(active: seq<ColumnHeader>, a: Line, b: Line)
    ensures CompareBy(active, a, b) == -CompareBy(active, b, a)
  {
    if |active| > 0 {
      CompareAscendingAntisymmetric(ColumnValue(a, active[0].key), ColumnValue(b, active[0].key));
      CompareByAntisymmetric(active[1..], a, b);
    }
  }

  lemma {:induction false} CompareByTransitive(active: seq<ColumnHeader>, a: Line, b: Line, c: Line)
    requires CompareBy(active, a, b) <= 0 && CompareBy(active, b, c) <= 0
    ensures CompareBy(active, a, c) <= 0
    ensures CompareBy(active, a, b) < 0 || CompareBy(active, b, c) < 0 ==> CompareBy(active, a, c) < 0
  {
    if |active| > 0 {
      var col := active[0];
      var va, vb, vc := ColumnValue(a, col.key), ColumnValue(b, col.key), ColumnValue(c, col.key);
      CompareAscendingAntisymmetric(va, vb);
      CompareAscendingAntisymmetric(vb, vc);
      CompareAscendingAntisymmetric(va, vc);
      if col.direction == Desc {
        if CompareAscending(vc, vb) <= 0 && CompareAscending(vb, va) <= 0 {
          CompareAscendingTransitive(vc, vb, va);
        }
      } else {
        if CompareAscending(va, vb) <= 0 && CompareAscending(vb, vc) <= 0 {
          CompareAscendingTransitive(va, vb, vc);
        }
      }
      if ColumnCompare(col, a, b) == 0 && ColumnCompare(col, b, c) == 0 {
        CompareByTransitive(active[1..], a, b, c);
      }
    }
  }

  /** `(a, b) => compareMultiple(a, b) <= 0`. */
  function LinesLe(active: seq<ColumnHeader>): (Line, Line) -> bool {
    (a, b) => CompareBy(active, a, b) <= 0
  }

  /** The compound comparator is a valid sort order. */
  lemma CompareByIsTotalPreorder(active: seq<ColumnHeader>)
    ensures TotalPreorder(LinesLe(active))
  {
    forall a, b ensures LinesLe(active)(a, b) || LinesLe(active)(b, a) {
      CompareByAntisymmetric(active, a, b);
    }
    forall a, b, c | LinesLe(active)(a, b) && LinesLe(active)(b, c) ensures LinesLe(active)(a, c) {
      CompareByTransitive(active, a, b, c);
    }
  }

  /** The columns with a direction, in column order. */
  function ActiveColumns(cols: seq<ColumnHeader>): seq<ColumnHeader> {
    Filter(cols, (c: ColumnHeader) => c.direction != Off)
  }

  /**
   * `sortedLines`: the lines as given when no column is active, otherwise the stable
   * `orderBy` of the lines by the active columns' keys and directions.
   */
  function SortedLines(cols: seq<ColumnHeader>, lines: seq<Line>): (r: seq<Line>)
    ensures |ActiveColumns(cols)| == 0 ==> r == lines
    ensures multiset(r) == multiset(lines) && |r| == |lines|
    ensures Sorted(r, LinesLe(ActiveColumns(cols)))
  {
    var active := ActiveColumns(cols);
    if |active| == 0 then lines
    else
      CompareByIsTotalPreorder(active);
      SortBySorted(lines, LinesLe(active));
      SortBy(lines, LinesLe(active))
  }

  /**
   * With one active column (what a click leaves), the rows are ordered by that column's
   * value: non-decreasing when ascending, non-increasing when descending.
   */
  lemma SortedLinesOneColumn(cols: seq<ColumnHeader>, lines: seq<Line>, k: int)
    requires 0 <= k < |cols| && cols[k].direction != Off
    requires forall i :: 0 <= i < |cols| && i != k ==> cols[i].direction == Off
    ensures var r := SortedLines(cols, lines);
      forall i, j :: 0 <= i < j < |r| ==>
        if cols[k].direction == Asc then CompareAscending(ColumnValue(r[i], cols[k].key), ColumnValue(r[j], cols[k].key)) <= 0
        else CompareAscending(ColumnValue(r[i], cols[k].key), ColumnValue(r[j], cols[k].key)) >= 0
  {
    OnlyActiveColumn(cols, k);
    var r := SortedLines(cols, lines);
    forall i, j | 0 <= i < j < |r|
      ensures if cols[k].direction == Asc then CompareAscending(ColumnValue(r[i], cols[k].key), ColumnValue(r[j], cols[k].key)) <= 0
        else CompareAscending(ColumnValue(r[i], cols[k].key), ColumnValue(r[j], cols[k].key)) >= 0
    {
      assert LinesLe([cols[k]])(r[i], r[j]);
    }
  }

  lemma {:induction false} OnlyActiveColumn(cols: seq<ColumnHeader>, k: int)
    requires 0 <= k < |cols| && cols[k].direction != Off
    requires forall i :: 0 <= i < |cols| && i != k ==> cols[i].direction == Off
    ensures ActiveColumns(cols) == [cols[k]]
  {
    if k == 0 {
      assert forall i :: 0 <= i < |cols[1..]| ==> cols[1..][i].direction == Off;
      assert ActiveColumns(cols[1..]) == [];
    } else {
      OnlyActiveColumn(cols[1..], k - 1);
    }
  }
}

=== FILE: csv.dfy ===
/**
 * `csvDownload`: the CSV export of the selected lines' records as a data URI, before
 * `encodeURI`. A fixed header row comes first, then one CRLF-terminated row per record of
 * each selected line that has a bucket, in line order and then record order.
 */
module Csv {
  import opened Optional
  import opened Seqs
  import opened Text
  import opened DashboardTypes
  import opened Catalog
  import opened Dashboard

  const DataUriPrefix: string := "data:text/csv;charset=utf-8,"

  const Header: string := "line_name,year,month,est_wkday_ridership,est_sat_ridership,est_sun_ridership"

  /** A ridership value in a template literal: `null` prints as the word. */
  function FieldText(v: Option<int>): string {
    match v
    case None => "null"
    case Some(n) => IntToString(n)
  }

  /** The six fields of a row: display name, year, month and the three ridership values. */
  function RowFields(r: RidershipRecord): seq<string> {
    [DisplayName(Number(r.lineName)), IntToString(r.year), IntToString(r.month),
     FieldText(r.weekday), FieldText(r.saturday), FieldText(r.sunday)]
  }

  function CsvRow(r: RidershipRecord): string {
    Join(RowFields(r), ',')
  }

  /** One row per record, in record order. */
  function Rows(recs: seq<RidershipRecord>): (r: seq<string>)
    ensures |r| == |recs|
  {
    if |recs| == 0 then [] else Rows(recs[..|recs| - 1]) + [CsvRow(recs[|recs| - 1])]
  }

  lemma {:induction false} RowsAt(recs: seq<RidershipRecord>, i: int)
    requires 0 <= i < |recs|
    ensures Rows(recs)[i] == CsvRow(recs[i])
  {
    if i < |recs| - 1 {
      RowsAt(recs[..|recs| - 1], i);
    }
  }

  lemma {:induction false} RowsAppend(a: seq<RidershipRecord>, b: seq<RidershipRecord>)
    ensures Rows(a + b) == Rows(a) + Rows(b)
    decreases |b|
  {
    if |b| == 0 {
      assert a + b == a;
    } else {
      assert (a + b)[..|a + b| - 1] == a + b[..|b| - 1];
      RowsAppend(a, b[..|b| - 1]);
    }
  }

  /** `lines.filter((line) => line.selected && lineMetricDataset[line.id])`. */
  function ExportedLines(lines: seq<Line>, ds: Aggregated): (r: seq<Line>)
    ensures forall l :: l in r ==> LineKey(l) in ds
  {
    Filter(lines, (l: Line) => l.selected && LineKey(l) in ds)
  }

  /** `.map((line) => lineMetricDataset[line.id])`. */
  function BucketsOf(ls: seq<Line>, ds: Aggregated): seq<Bucket>
    requires forall l :: l in ls ==> LineKey(l) in ds
  {
    seq(|ls|, i requires 0 <= i < |ls| => ds[LineKey(ls[i])])
  }

  /** The buckets' records one bucket after the other. */
  function Flatten(bs: seq<Bucket>): seq<RidershipRecord> {
    if |bs| == 0 then [] else Flatten(bs[..|bs| - 1]) + bs[|bs| - 1].records
  }

  /** The records the export writes, in the order it writes them. */
  function ExportedRecords(lines: seq<Line>, ds: Aggregated): seq<RidershipRecord> {
    Flatten(BucketsOf(ExportedLines(lines, ds), ds))
  }

  /** The whole export as one string. */
  function CsvText(lines: seq<Line>, ds: Aggregated): string {
    DataUriPrefix + Terminated([Header] + Rows(ExportedRecords(lines, ds)))
  }

  /**
   * `csvDownload` as written: start from the prefix, add the header, then add the rows of
   * each exported bucket.
   */
  method CsvDownload(lines: seq<Line>, ds: Aggregated) returns (csv: string)
    ensures csv == CsvText(lines, ds)
    ensures StartsWith(csv, DataUriPrefix + Header + CRLF)
  {
    ghost var head := DataUriPrefix + Header + CRLF;
    csv := DataUriPrefix;
    csv := csv + Header + CRLF;
    var linesData := BucketsOf(ExportedLines(lines, ds), ds);
    var i := 0;
    while i < |linesData|
      invariant 0 <= i <= |linesData|
      invariant csv == head + Terminated(Rows(Flatten(linesData[..i])))
    {
      ghost var before := Terminated(Rows(Flatten(linesData[..i])));
      ghost var added := Terminated(Rows(linesData[i].records));
      csv := AppendRows(csv, Rows(linesData[i].records));
      BucketStep(linesData, i);
      ConcatAssoc(head, before, added);
      i := i + 1;
    }
    assert linesData[..i] == linesData;
    HeadThenRows(Rows(ExportedRecords(lines, ds)));
    StartsWithAppend(head, Terminated(Rows(ExportedRecords(lines, ds))));
  }

  /** The text after the prefix is the header row followed by the data rows. */
  lemma HeadThenRows(rows: seq<string>)
    ensures DataUriPrefix + Terminated([Header] + rows) == DataUriPrefix + Header + CRLF + Terminated(rows)
  {
    TerminatedCons(Header, rows);
    ConcatAssoc(DataUriPrefix, Header, CRLF);
    ConcatAssoc(DataUriPrefix, Header + CRLF, Terminated(rows));
    ConcatAssoc(Header, CRLF, Terminated(rows));
  }

  lemma BucketStep(bs: seq<Bucket>, i: int)
    requires 0 <= i < |bs|
    ensures Terminated(Rows(Flatten(bs[..i + 1]))) == Terminated(Rows(Flatten(bs[..i]))) + Terminated(Rows(bs[i].records))
  {
    assert bs[..i + 1][..i] == bs[..i];
    RowsAppend(Flatten(bs[..i]), bs[i].records);
    TerminatedAppend(Rows(Flatten(bs[..i])), Rows(bs[i].records));
  }

  /** The inner `forEach`: each row followed by CRLF. */
  method AppendRows(csv: string, rows: seq<string>) returns (out: string)
    ensures out == csv + Terminated(rows)
  {
    out := csv;
    var j := 0;
    while j < |rows|
      invariant 0 <= j <= |rows|
      invariant out == csv + Terminated(rows[..j])
    {
      TerminatedAppend(rows[..j], [rows[j]]);
      assert rows[..j + 1] == rows[..j] + [rows[j]];
      assert Terminated([rows[j]]) == rows[j] + CRLF;
      out := out + rows[j] + CRLF;
      j := j + 1;
    }
    assert rows[..j] == rows;
  }

  lemma TerminatedCons(row: string, rows: seq<string>)
    ensures Terminated([row] + rows) == row + CRLF + Terminated(rows)
  {
    assert ([row] + rows)[1..] == rows;
  }

  /** Reads a ridership field back: the word `null` is a null value. */
  function ParseField(s: string): Option<int> {
    if s == "null" then None else Number(s)
  }

  /** Checks the prefix and header row, then reads the CRLF-terminated rows and splits them on commas. */
  function ParseCsv(csv: string): Option<seq<seq<string>>> {
    var head := DataUriPrefix + Header + CRLF;
    if !StartsWith(csv, head) then None
    else
      var ls := ReadLines(csv[|head|..], "");
      Some(seq(|ls|, i requires 0 <= i < |ls| => Split(ls[i], ',')))
  }

  /** A display name holds neither a comma nor a carriage return. */
  lemma DisplayNamePlain(n: Option<int>)
    ensures ',' !in DisplayName(n) && '\r' !in DisplayName(n)
  {
    if n.Some? {
      if IsDefined(n.value) {
        LetteredNamePlain(n.value);
      } else {
        NumberedNamePlain(n.value);
      }
    }
  }

  lemma LetteredNamePlain(n: int)
    requires IsDefined(n)
    ensures ',' !in GetLineName(n) && '\r' !in GetLineName(n)
  {
    LetteredName(n);
    var i :| 0 <= i < |DefinedLines| && GetLineName(n) == DefinedLines[i].letter + " Line";
    LetterShape(i);
    LetterPlain(DefinedLines[i].letter);
  }

  lemma LetterPlain(letter: string)
    requires |letter| == 1 && 'A' <= letter[0] <= 'Z'
    ensures ',' !in letter + " Line" && '\r' !in letter + " Line"
  {
  }

  lemma NumberedNamePlain(n: int)
    requires !IsDefined(n)
    ensures ',' !in GetLineName(n) && '\r' !in GetLineName(n)
  {
    NumberedName(n);
    var s := IntToString(n);
    assert forall c :: c in s ==> IsDigit(c) || c == '-';
  }

  lemma FieldsPlain(r: RidershipRecord)
    ensures forall i :: 0 <= i < 6 ==> ',' !in RowFields(r)[i] && '\r' !in RowFields(r)[i]
  {
    DisplayNamePlain(Number(r.lineName));
    var f := RowFields(r);
    forall i | 1 <= i < 6 ensures ',' !in f[i] && '\r' !in f[i] {
      assert forall c :: c in f[i] ==> IsDigit(c) || c == '-' || c in "null";
    }
  }

  lemma JoinPlain(parts: seq<string>, sep: char)
    requires sep != '\r'
    requires forall i :: 0 <= i < |parts| ==> '\r' !in parts[i]
    ensures '\r' !in Join(parts, sep)
  {
    if |parts| > 1 {
      JoinPlain(parts[1..], sep);
    }
  }

  /**
   * Each row splits back into its six fields, and the fields read back as the record's
   * year, month and ridership values.
   */
  lemma CsvRowReadsBack(r: RidershipRecord)
    ensures Split(CsvRow(r), ',') == RowFields(r)
    ensures Number(RowFields(r)[1]) == Some(r.year) && Number(RowFields(r)[2]) == Some(r.month)
    ensures ParseField(RowFields(r)[3]) == r.weekday
    ensures ParseField(RowFields(r)[4]) == r.saturday
    ensures ParseField(RowFields(r)[5]) == r.sunday
  {
    FieldsPlain(r);
    SplitJoin(RowFields(r), ',');
    NumberOfIntToString(r.year);
    NumberOfIntToString(r.month);
    FieldReadsBack(r.weekday);
    FieldReadsBack(r.saturday);
    FieldReadsBack(r.sunday);
  }

  lemma FieldReadsBack(v: Option<int>)
    ensures ParseField(FieldText(v)) == v
  {
    if v.Some? {
      NumberOfIntToString(v.value);
      var s := IntToString(v.value);
      assert s != "null" by {
        assert IsDigit(s[0]) || s[0] == '-';
      }
    }
  }

  /**
   * Parsing the export gives back one six-field row per exported record, in export order,
   * after the header.
   */
  lemma CsvReadsBack(lines: seq<Line>, ds: Aggregated)
    ensures var recs := ExportedRecords(lines, ds);
      ParseCsv(CsvText(lines, ds)) == Some(seq(|recs|, i requires 0 <= i < |recs| => RowFields(recs[i])))
  {
    var recs := ExportedRecords(lines, ds);
    var rows := Rows(recs);
    forall i | 0 <= i < |rows| ensures '\r' !in rows[i] {
      RowsAt(recs, i);
      FieldsPlain(recs[i]);
      JoinPlain(RowFields(recs[i]), ',');
    }
    HeadThenRows(rows);
    ParseTerminated(rows);
    var parsed := seq(|rows|, i requires 0 <= i < |rows| => Split(rows[i], ','));
    var fields := seq(|recs|, i requires 0 <= i < |recs| => RowFields(recs[i]));
    forall i | 0 <= i < |recs| ensures parsed[i] == fields[i] {
      RowsAt(recs, i);
      CsvRowReadsBack(recs[i]);
    }
    assert parsed == fields;
    assert CsvText(lines, ds) == DataUriPrefix + Header + CRLF + Terminated(rows);
  }

  /** Rows without a carriage return are read back one by one after the header. */
  lemma ParseTerminated(rows: seq<string>)
    requires forall i :: 0 <= i < |rows| ==> '\r' !in rows[i]
    ensures ParseCsv(DataUriPrefix + Header + CRLF + Terminated(rows)) ==
      Some(seq(|rows|, i requires 0 <= i < |rows| => Split(rows[i], ',')))
  {
    var head := DataUriPrefix + Header + CRLF;
    var csv := head + Terminated(rows);
    StartsWithAppend(head, Terminated(rows));
    assert csv[|head|..] == Terminated(rows);
    ReadLinesTerminated(rows);
  }

  /** A record is exported exactly when it is in the bucket of a selected line. */
  lemma ExportedRecordsMembership(lines: seq<Line>, ds: Aggregated, x: RidershipRecord)
    ensures x in ExportedRecords(lines, ds) <==>
      exists l :: l in lines && l.selected && LineKey(l) in ds && x in ds[LineKey(l)].records
  {
    var ls := ExportedLines(lines, ds);
    var bs := BucketsOf(ls, ds);
    FlattenMembership(bs, x);
    if exists l :: l in lines && l.selected && LineKey(l) in ds && x in ds[LineKey(l)].records {
      var l :| l in lines && l.selected && LineKey(l) in ds && x in ds[LineKey(l)].records;
      assert l in ls;
      var i :| 0 <= i < |ls| && ls[i] == l;
      assert bs[i] == ds[LineKey(l)];
    }
  }

  lemma {:induction false} FlattenMembership(bs: seq<Bucket>, x: RidershipRecord)
    ensures x in Flatten(bs) <==> exists i :: 0 <= i < |bs| && x in bs[i].records
  {
    if |bs| > 0 {
      var init := bs[..|bs| - 1];
      FlattenMembership(init, x);
      if exists i :: 0 <= i < |init| && x in init[i].records {
        var i :| 0 <= i < |init| && x in init[i].records;
        assert x in bs[i].records;
      }
      if exists i :: 0 <= i < |bs| && x in bs[i].records {
        var i :| 0 <= i < |bs| && x in bs[i].records;
        if i < |bs| - 1 {
          assert x in init[i].records;
        }
      }
    }
  }

  /** The number of data rows is the total record count of the exported buckets. */
  lemma {:induction false} FlattenLength(bs: seq<Bucket>)
    ensures |Flatten(bs)| == SumInt(seq(|bs|, i requires 0 <= i < |bs| => |bs[i].records|))
  {
    if |bs| > 0 {
      FlattenLength(bs[..|bs| - 1]);
      var counts := seq(|bs|, i requires 0 <= i < |bs| => |bs[i].records|);
      assert counts[..|bs| - 1] == seq(|bs| - 1, i requires 0 <= i < |bs| - 1 => |bs[..|bs| - 1][i].records|);
    }
  }

  lemma {:induction false} FlattenAppend(a: seq<Bucket>, b: seq<Bucket>)
    ensures Flatten(a + b) == Flatten(a) + Flatten(b)
    decreases |b|
  {
    if |b| == 0 {
      assert a + b == a;
    } else {
      var b' := b[..|b| - 1];
      assert (a + b)[..|a + b| - 1] == a + b';
      assert (a + b)[|a + b| - 1] == b[|b| - 1];
      FlattenAppend(a, b');
      ConcatAssoc(Flatten(a), Flatten(b'), b[|b| - 1].records);
    }
  }

  /**
   * The export follows the order of the lines: the rows for the lines `a + b` are the rows
   * for `a` followed by the rows for `b`.
   */
  lemma ExportedRecordsAppend(a: seq<Line>, b: seq<Line>, ds: Aggregated)
    ensures ExportedRecords(a + b, ds) == ExportedRecords(a, ds) + ExportedRecords(b, ds)
  {
    var la, lb := ExportedLines(a, ds), ExportedLines(b, ds);
    ExportedLinesAppend(a, b, ds);
    BucketsOfAppend(la, lb, ds);
    FlattenAppend(BucketsOf(la, ds), BucketsOf(lb, ds));
  }

  lemma ExportedLinesAppend(a: seq<Line>, b: seq<Line>, ds: Aggregated)
    ensures ExportedLines(a + b, ds) == ExportedLines(a, ds) + ExportedLines(b, ds)
  {
    FilterAppend(a, b, (l: Line) => l.selected && LineKey(l) in ds);
  }

  lemma BucketsOfAppend(la: seq<Line>, lb: seq<Line>, ds: Aggregated)
    requires forall l :: l in la ==> LineKey(l) in ds
    requires forall l :: l in lb ==> LineKey(l) in ds
    ensures BucketsOf(la + lb, ds) == BucketsOf(la, ds) + BucketsOf(lb, ds)
  {
    var r := BucketsOf(la + lb, ds);
    forall i | 0 <= i < |r| ensures r[i] == (BucketsOf(la, ds) + BucketsOf(lb, ds))[i] {
      if i >= |la| {
        assert (la + lb)[i] == lb[i - |la|];
      }
    }
  }

  /** One line contributes the whole of its bucket when it is selected and has one, and nothing otherwise. */
  lemma ExportedRecordsSingle(l: Line, ds: Aggregated)
    ensures ExportedRecords([l], ds) ==
      if l.selected && LineKey(l) in ds then ds[LineKey(l)].records else []
  {
    var ls := ExportedLines([l], ds);
    if l.selected && LineKey(l) in ds {
      assert ls == [l];
      var bs := BucketsOf(ls, ds);
      assert bs == [ds[LineKey(l)]];
      assert Flatten(bs) == Flatten(bs[..0]) + bs[0].records;
    } else {
      assert ls == [];
    }
  }
}

=== FILE: dashboard.dfy ===
/**
 * The dashboard hook's line state (`useUserDashboardInput`, in its current and its older
 * copy): building the catalogue lines, writing per-line metrics back onto them, the
 * visibility predicate behind `visibleLines`, the selection updaters, and the bus/rail
 * mode filter. Every updater is a whole-array map over the lines.
 */
module Dashboard {
  import opened Optional
  import opened Seqs
  import opened Text
  import opened Sorting
  import opened DashboardTypes
  import opened Catalog
  import opened Calc

  // ---------------------------------------------------------------- creating the lines

  /** `createLinesData`'s mapping of a metadata entry in the current hook. */
  function LineFromJson(j: LineJson): Line {
    var names := GetLineNames(j.line);
    Line(j.line, names.current, names.former, j.mode, j.provider, false, true, None, None, None, None)
  }

  /** The older hook's mapping: the name from `getLineName`, no former name. */
  function LegacyLineFromJson(j: LineJson): Line {
    Line(j.line, GetLineName(j.line), None, j.mode, j.provider, false, true, None, None, None, None)
  }

  function MapLines(js: seq<LineJson>, f: LineJson -> Line): seq<Line> {
    seq(|js|, i requires 0 <= i < |js| => f(js[i]))
  }

  /** Map every metadata entry to a line and sort with `lineNameSortFunction`. */
  function CreateLines(js: seq<LineJson>, f: LineJson -> Line): (r: seq<Line>)
    ensures |r| == |js|
    ensures multiset(r) == multiset(MapLines(js, f))
    ensures Sorted(r, LineNameLe)
    ensures forall l :: l in r <==> exists j :: 0 <= j < |js| && l == f(js[j])
  {
    var mapped := MapLines(js, f);
    LineNameOrderIsTotalPreorder();
    SortBySorted(mapped, LineNameLe);
    var r := SortBy(mapped, LineNameLe);
    forall l ensures l in r <==> exists j :: 0 <= j < |js| && l == f(js[j]) {
      assert l in r <==> l in multiset(r);
      if l in mapped {
        var j :| 0 <= j < |mapped| && mapped[j] == l;
        assert l == f(js[j]);
      }
      if exists j :: 0 <= j < |js| && l == f(js[j]) {
        var j :| 0 <= j < |js| && l == f(js[j]);
        assert mapped[j] == l;
      }
    }
    r
  }

  /** `createLinesData` of the current hook. */
  function CreateLinesData(js: seq<LineJson>): (r: seq<Line>)
    ensures |r| == |js| && Sorted(r, LineNameLe)
    ensures forall i :: 0 <= i < |r| ==> !r[i].selected && r[i].visible
    ensures forall i :: 0 <= i < |r| ==>
      r[i].name == GetLineNames(r[i].id).current && r[i].former == GetLineNames(r[i].id).former
    ensures forall i :: 0 <= i < |r| ==> r[i].averageRidership.None? && r[i].changeInRidership.None?
  {
    var r := CreateLines(js, LineFromJson);
    assert forall i :: 0 <= i < |r| ==> r[i] in r;
    r
  }

  /**
   * `createLinesData` of the older hook. Its `lineNameSortFunction` import does not
   * resolve; the name order of `src/utils/lines.ts` stands in for it.
   */
  function LegacyCreateLinesData(js: seq<LineJson>): (r: seq<Line>)
    ensures |r| == |js| && Sorted(r, LineNameLe)
    ensures forall i :: 0 <= i < |r| ==> !r[i].selected && r[i].visible
    ensures forall i :: 0 <= i < |r| ==> r[i].name == GetLineName(r[i].id) && r[i].former.None?
    ensures forall i :: 0 <= i < |r| ==> r[i].averageRidership.None? && r[i].changeInRidership.None?
  {
    var r := CreateLines(js, LegacyLineFromJson);
    assert forall i :: 0 <= i < |r| ==> r[i] in r;
    r
  }

  /**
   * The sorted catalogue lists the lettered lines (those of the fixed table) first, then
   * the numbered ones by ascending number.
   */
  lemma CreateLinesDataOrder(js: seq<LineJson>)
    ensures var r := CreateLinesData(js);
      forall i, j :: 0 <= i < j < |r| && IsDefined(r[j].id) ==> IsDefined(r[i].id)
    ensures var r := CreateLinesData(js);
      forall i, j :: 0 <= i < j < |r| && !IsDefined(r[i].id) ==> r[i].id <= r[j].id
  {
    var r := CreateLinesData(js);
    forall i | 0 <= i < |r| ensures IsDefined(r[i].id) <==> !StartsWith(r[i].name, "Line") {
      NamePrefix(r[i].id);
      CurrentNameAgrees(r[i].id);
    }
    forall i, j | 0 <= i < j < |r| ensures LineNameCompare(r[i], r[j]) <= 0 {
      assert LineNameLe(r[i], r[j]);
    }
  }

  // ---------------------------------------------------------------- metrics write-back

  /** The current hook also stores `calcStart`/`calcEnd` of the sorted records; the older one does not. */
  datatype EndpointCalcs =
    | NoEndpoints
    | Endpoints(calcStart: seq<RidershipRecord> -> Option<int>, calcEnd: seq<RidershipRecord> -> Option<int>)

  /** `ridershipByLine[line.id]` reads the property named by the id's decimal string. */
  function LineKey(l: Line): string {
    IntToString(l.id)
  }

  /** Only the metric fields differ. */
  predicate SameLineState(a: Line, b: Line) {
    a.id == b.id && a.name == b.name && a.former == b.former && a.mode == b.mode &&
    a.provider == b.provider && a.selected == b.selected && a.visible == b.visible
  }

  /** A line with a bucket: average and change of the records, endpoints of the sorted records. */
  function WithMetrics(l: Line, recs: seq<RidershipRecord>, d: DayType, calcs: EndpointCalcs): (r: Line)
    requires |recs| > 0
    ensures SameLineState(r, l)
    ensures IsAverageOf(r.averageRidership, recs, d)
    ensures r.changeInRidership == Some(CalcAbsChange(recs, d).change)
    ensures calcs.NoEndpoints? ==> r.startingRidership == l.startingRidership && r.endingRidership == l.endingRidership
  {
    var ch := CalcAbsChange(recs, d);
    var updated := l.(averageRidership := CalcAvg(recs, d), changeInRidership := Some(ch.change));
    match calcs
    case NoEndpoints => updated
    case Endpoints(calcStart, calcEnd) =>
      updated.(startingRidership := calcStart(ch.sorted), endingRidership := calcEnd(ch.sorted))
  }

  /** A line without a bucket: average and change become `undefined`, nothing else changes. */
  function WithoutMetrics(l: Line): (r: Line)
    ensures SameLineState(r, l)
    ensures r.averageRidership.None? && r.changeInRidership.None?
    ensures r.startingRidership == l.startingRidership && r.endingRidership == l.endingRidership
  {
    l.(averageRidership := None, changeInRidership := None)
  }

  /** Every bucket the lines look up is non-empty (`calcAbsChange` throws on an empty one). */
  predicate LookedUpNonEmpty(lines: seq<Line>, ds: Aggregated) {
    forall i :: 0 <= i < |lines| && LineKey(lines[i]) in ds ==> |ds[LineKey(lines[i])].records| > 0
  }

  /** A bucket after `calcAbsChange` sorted it. */
  function SortedBucket(w: Bucket, d: DayType): (r: Bucket)
    requires |w.records| > 0
    ensures r.selected == w.selected && multiset(r.records) == multiset(w.records)
    ensures |r.records| == |w.records| && Sorted(r.records, ChronoLe)
  {
    w.(records := CalcAbsChange(w.records, d).sorted)
  }

  /** The dataset after `calcAbsChange` sorted the bucket under `k` in place. */
  function SortAt(ds: Aggregated, k: string, d: DayType): (r: Aggregated)
    requires k in ds && |ds[k].records| > 0
    ensures r.Keys == ds.Keys
    ensures forall k' :: k' in ds && k' != k ==> r[k'] == ds[k']
    ensures r[k] == SortedBucket(ds[k], d)
  {
    ds[k := SortedBucket(ds[k], d)]
  }

  /** The remaining lines still find non-empty buckets. */
  lemma LookedUpNonEmptyTail(lines: seq<Line>, ds: Aggregated, d: DayType)
    requires |lines| > 0 && LookedUpNonEmpty(lines, ds)
    ensures LookedUpNonEmpty(lines[1..], ds)
    ensures LineKey(lines[0]) in ds ==> LookedUpNonEmpty(lines[1..], SortAt(ds, LineKey(lines[0]), d))
  {
    assert forall i :: 0 <= i < |lines| - 1 ==> lines[1..][i] == lines[i + 1];
  }

  /** The lines and the dataset after an update: `calcAbsChange` sorted the buckets it read. */
  datatype MetricsUpdate = MetricsUpdate(lines: seq<Line>, dataset: Aggregated)

  /**
   * `updateLinesWithLineMetrics`: the map callback runs line by line, and each call of
   * `calcAbsChange` sorts the bucket it reads in place, so the next line with the same key
   * sees sorted records.
   */
  function UpdateLinesWithLineMetrics(lines: seq<Line>, ds: Aggregated, d: DayType, calcs: EndpointCalcs)
    : (r: MetricsUpdate)
    requires LookedUpNonEmpty(lines, ds)
    ensures |r.lines| == |lines|
    ensures r.dataset.Keys == ds.Keys
    decreases |lines|
  {
    if |lines| == 0 then MetricsUpdate([], ds)
    else
      var k := LineKey(lines[0]);
      LookedUpNonEmptyTail(lines, ds, d);
      if k !in ds then
        var rest := UpdateLinesWithLineMetrics(lines[1..], ds, d, calcs);
        MetricsUpdate([WithoutMetrics(lines[0])] + rest.lines, rest.dataset)
      else
        var rest := UpdateLinesWithLineMetrics(lines[1..], SortAt(ds, k, d), d, calcs);
        MetricsUpdate([WithMetrics(lines[0], ds[k].records, d, calcs)] + rest.lines, rest.dataset)
  }

  /**
   * One line updated against the dataset as it was before the update started. The line
   * keeps its identity and UI state; with a bucket, the average times the record count is
   * the record sum (nulls as 0) and the change is the chronological last minus first;
   * without one, both become `undefined` and starting/ending ridership stay as they were.
   */
  function UpdatedLine(l: Line, ds: Aggregated, d: DayType, calcs: EndpointCalcs): (r: Line)
    requires LineKey(l) in ds ==> |ds[LineKey(l)].records| > 0
    ensures SameLineState(r, l)
    ensures LineKey(l) in ds ==>
      && IsAverageOf(r.averageRidership, ds[LineKey(l)].records, d)
      && r.changeInRidership == Some(CalcAbsChange(ds[LineKey(l)].records, d).change)
    ensures LineKey(l) !in ds ==>
      && r.averageRidership.None? && r.changeInRidership.None?
      && r.startingRidership == l.startingRidership && r.endingRidership == l.endingRidership
  {
    if LineKey(l) in ds then WithMetrics(l, ds[LineKey(l)].records, d, calcs) else WithoutMetrics(l)
  }

  /** Reading a bucket before or after it was sorted gives the same line. */
  lemma WithMetricsSorted(l: Line, w: Bucket, d: DayType, calcs: EndpointCalcs)
    requires |w.records| > 0
    ensures WithMetrics(l, SortedBucket(w, d).records, d, calcs) == WithMetrics(l, w.records, d, calcs)
    ensures SortedBucket(SortedBucket(w, d), d) == SortedBucket(w, d)
  {
    CalcAvgPermutation(SortedBucket(w, d).records, w.records, d);
    CalcAbsChangeResort(w.records, d);
  }

  /** Each bucket is either as it was or sorted once. */
  ghost predicate SortedOrOriginal(ds0: Aggregated, cur: Aggregated, d: DayType) {
    cur.Keys == ds0.Keys &&
    forall k :: k in ds0 ==> cur[k] == ds0[k] || (|ds0[k].records| > 0 && cur[k] == SortedBucket(ds0[k], d))
  }

  ghost predicate LooksUp(lines: seq<Line>, k: string) {
    exists i :: 0 <= i < |lines| && LineKey(lines[i]) == k
  }

  lemma LooksUpCons(lines: seq<Line>, k: string)
    requires |lines| > 0
    ensures LooksUp(lines, k) <==> k == LineKey(lines[0]) || LooksUp(lines[1..], k)
  {
    if LooksUp(lines, k) && k != LineKey(lines[0]) {
      var i :| 0 <= i < |lines| && LineKey(lines[i]) == k;
      assert LineKey(lines[1..][i - 1]) == k;
    }
    if LooksUp(lines[1..], k) {
      var i :| 0 <= i < |lines[1..]| && LineKey(lines[1..][i]) == k;
      assert LineKey(lines[i + 1]) == k;
    }
  }

  /** The step of the update proofs for a line whose bucket exists. */
  lemma SortAtKeepsState(ds0: Aggregated, cur: Aggregated, k: string, d: DayType, l: Line, calcs: EndpointCalcs)
    requires SortedOrOriginal(ds0, cur, d)
    requires k in cur && |cur[k].records| > 0 && |ds0[k].records| > 0
    ensures SortedOrOriginal(ds0, SortAt(cur, k, d), d)
    ensures SortAt(cur, k, d)[k] == SortedBucket(ds0[k], d)
    ensures WithMetrics(l, cur[k].records, d, calcs) == WithMetrics(l, ds0[k].records, d, calcs)
  {
    WithMetricsSorted(l, ds0[k], d, calcs);
  }

  /** The dataset the rest of the update starts from once the bucket under `k` was read. */
  function AfterRead(ds: Aggregated, k: string, d: DayType): Aggregated
    requires k in ds ==> |ds[k].records| > 0
  {
    if k in ds then SortAt(ds, k, d) else ds
  }

  /** The first step of the sequential update. */
  lemma UpdateUnfold(lines: seq<Line>, cur: Aggregated, d: DayType, calcs: EndpointCalcs)
    requires |lines| > 0 && LookedUpNonEmpty(lines, cur)
    ensures LineKey(lines[0]) in cur ==> |cur[LineKey(lines[0])].records| > 0
    ensures LookedUpNonEmpty(lines[1..], AfterRead(cur, LineKey(lines[0]), d))
    ensures var r := UpdateLinesWithLineMetrics(lines, cur, d, calcs);
      var rest := UpdateLinesWithLineMetrics(lines[1..], AfterRead(cur, LineKey(lines[0]), d), d, calcs);
      r == MetricsUpdate([UpdatedLine(lines[0], cur, d, calcs)] + rest.lines, rest.dataset)
  {
    LookedUpNonEmptyTail(lines, cur, d);
  }

  /** The lines part of the sequential update, from a dataset some of whose buckets are sorted already. */
  lemma {:induction false} UpdateLinesFromState(lines: seq<Line>, ds0: Aggregated, cur: Aggregated, d: DayType, calcs: EndpointCalcs)
    requires LookedUpNonEmpty(lines, ds0) && LookedUpNonEmpty(lines, cur)
    requires SortedOrOriginal(ds0, cur, d)
    ensures var r := UpdateLinesWithLineMetrics(lines, cur, d, calcs);
      forall i :: 0 <= i < |lines| ==> r.lines[i] == UpdatedLine(lines[i], ds0, d, calcs)
    decreases |lines|
  {
    if |lines| > 0 {
      var l := lines[0];
      var k := LineKey(l);
      UpdateUnfold(lines, cur, d, calcs);
      LookedUpNonEmptyTail(lines, ds0, d);
      var next := AfterRead(cur, k, d);
      assert SortedOrOriginal(ds0, next, d) && UpdatedLine(l, cur, d, calcs) == UpdatedLine(l, ds0, d, calcs) by {
        if k in cur {
          SortAtKeepsState(ds0, cur, k, d, l, calcs);
        }
      }
      UpdateLinesFromState(lines[1..], ds0, next, d, calcs);
      var r := UpdateLinesWithLineMetrics(lines, cur, d, calcs);
      var rest := UpdateLinesWithLineMetrics(lines[1..], next, d, calcs);
      forall i | 1 <= i < |lines| ensures r.lines[i] == UpdatedLine(lines[i], ds0, d, calcs) {
        assert r.lines[i] == rest.lines[i - 1];
        assert lines[i] == lines[1..][i - 1];
      }
    }
  }

  /** The dataset part of the sequential update. */
  lemma {:induction false} UpdateDatasetFromState(lines: seq<Line>, ds0: Aggregated, cur: Aggregated, d: DayType, calcs: EndpointCalcs)
    requires LookedUpNonEmpty(lines, ds0) && LookedUpNonEmpty(lines, cur)
    requires SortedOrOriginal(ds0, cur, d)
    ensures var r := UpdateLinesWithLineMetrics(lines, cur, d, calcs);
      forall k :: k in ds0 && !LooksUp(lines, k) ==> r.dataset[k] == cur[k]
    ensures var r := UpdateLinesWithLineMetrics(lines, cur, d, calcs);
      forall i :: 0 <= i < |lines| && LineKey(lines[i]) in ds0 ==>
        r.dataset[LineKey(lines[i])] == SortedBucket(ds0[LineKey(lines[i])], d)
    decreases |lines|
  {
    if |lines| > 0 {
      var l := lines[0];
      var k := LineKey(l);
      UpdateUnfold(lines, cur, d, calcs);
      LookedUpNonEmptyTail(lines, ds0, d);
      var next := AfterRead(cur, k, d);
      assert SortedOrOriginal(ds0, next, d) && (k in ds0 ==> next[k] == SortedBucket(ds0[k], d)) by {
        if k in cur {
          SortAtKeepsState(ds0, cur, k, d, l, calcs);
        }
      }
      UpdateDatasetFromState(lines[1..], ds0, next, d, calcs);
      var r := UpdateLinesWithLineMetrics(lines, cur, d, calcs);
      forall k' | k' in ds0 && !LooksUp(lines, k') ensures r.dataset[k'] == cur[k'] {
        LooksUpCons(lines, k');
      }
      forall i | 0 <= i < |lines| && LineKey(lines[i]) in ds0
        ensures r.dataset[LineKey(lines[i])] == SortedBucket(ds0[LineKey(lines[i])], d)
      {
        if i > 0 {
          assert lines[i] == lines[1..][i - 1];
        } else {
          LooksUpCons(lines, k);
          if LooksUp(lines[1..], k) {
            var j :| 0 <= j < |lines[1..]| && LineKey(lines[1..][j]) == k;
          }
        }
      }
    }
  }

  /**
   * The sequential update equals updating every line against the original dataset; the
   * dataset comes back with exactly the looked-up buckets sorted chronologically.
   */
  lemma UpdateLinesAllAtOnce(lines: seq<Line>, ds: Aggregated, d: DayType, calcs: EndpointCalcs)
    requires LookedUpNonEmpty(lines, ds)
    ensures var r := UpdateLinesWithLineMetrics(lines, ds, d, calcs);
      forall i :: 0 <= i < |lines| ==> r.lines[i] == UpdatedLine(lines[i], ds, d, calcs)
    ensures var r := UpdateLinesWithLineMetrics(lines, ds, d, calcs);
      forall i :: 0 <= i < |lines| && LineKey(lines[i]) in ds ==>
        r.dataset[LineKey(lines[i])] == SortedBucket(ds[LineKey(lines[i])], d)
    ensures var r := UpdateLinesWithLineMetrics(lines, ds, d, calcs);
      forall k :: k in ds && !LooksUp(lines, k) ==> r.dataset[k] == ds[k]
  {
    UpdateLinesFromState(lines, ds, ds, d, calcs);
    UpdateDatasetFromState(lines, ds, ds, d, calcs);
  }

  // ---------------------------------------------------------------- visibility

  /** `!!x` for an optional number: `undefined`, `NaN` and `0` are falsy. */
  predicate TruthyReal(x: Option<real>) {
    x.Some? && x.value != 0.0
  }

  predicate TruthyInt(x: Option<int>) {
    x.Some? && x.value != 0
  }

  /**
   * `isVisibleLine`: a non-empty search must occur in the lower-cased name, and the line
   * needs a truthy average, a truthy change and `visible`.
   */
  predicate IsVisibleLine(l: Line, search: string) {
    (|search| == 0 || Includes(Lower(l.name), Lower(search))) &&
    TruthyReal(l.averageRidership) && TruthyInt(l.changeInRidership) && l.visible
  }

  /** `lines.filter(isVisibleLine)` (the `page.tsx` memo computes the same filter). */
  function VisibleLines(lines: seq<Line>, search: string): (r: seq<Line>)
    ensures SubsequenceOf(r, lines)
    ensures forall l :: l in r <==> l in lines && IsVisibleLine(l, search)
    ensures forall l :: l in r ==> l.visible && l.changeInRidership != Some(0) && l.averageRidership != Some(0.0)
  {
    Filter(lines, l => IsVisibleLine(l, search))
  }

  /** Typing more of the search can only hide lines. */
  lemma SearchNarrows(l: Line, s: string, t: string)
    requires IsVisibleLine(l, s + t)
    ensures IsVisibleLine(l, s)
  {
    if |s| > 0 {
      LowerAppend(s, t);
      IncludesPrefix(Lower(l.name), Lower(s), Lower(t));
    }
  }

  /** The search is case-insensitive: a line is found by its name in any ASCII case. */
  lemma SearchCaseInsensitive(l: Line, s: string)
    ensures IsVisibleLine(l, s) <==> IsVisibleLine(l, Lower(s))
  {
    LowerIdempotent(s);
  }

  // ---------------------------------------------------------------- selection

  /** `selectAllVisibleLines`: select every visible line, keep every other selection. */
  function SelectAllVisibleLines(lines: seq<Line>, search: string): (r: seq<Line>)
    ensures |r| == |lines|
    ensures forall i :: 0 <= i < |lines| ==> r[i].(selected := lines[i].selected) == lines[i]
    ensures forall i :: 0 <= i < |lines| ==> (r[i].selected <==> lines[i].selected || IsVisibleLine(lines[i], search))
  {
    seq(|lines|, i requires 0 <= i < |lines| =>
      lines[i].(selected := IsVisibleLine(lines[i], search) || lines[i].selected))
  }

  /** Selecting all visible lines twice is selecting them once. */
  lemma SelectAllIdempotent(lines: seq<Line>, search: string)
    ensures SelectAllVisibleLines(SelectAllVisibleLines(lines, search), search) == SelectAllVisibleLines(lines, search)
  {
    var once := SelectAllVisibleLines(lines, search);
    var twice := SelectAllVisibleLines(once, search);
    forall i | 0 <= i < |lines| ensures twice[i] == once[i] {
      assert IsVisibleLine(once[i], search) == IsVisibleLine(lines[i], search);
    }
  }

  /** Afterwards every visible line is selected, and the visible set is what it was. */
  lemma SelectAllSelectsVisible(lines: seq<Line>, search: string)
    ensures forall l :: l in VisibleLines(SelectAllVisibleLines(lines, search), search) ==> l.selected
    ensures |VisibleLines(SelectAllVisibleLines(lines, search), search)| == |VisibleLines(lines, search)|
  {
    var r := SelectAllVisibleLines(lines, search);
    forall l | l in VisibleLines(r, search) ensures l.selected {
      var i :| 0 <= i < |r| && r[i] == l;
      assert IsVisibleLine(r[i], search) == IsVisibleLine(lines[i], search);
    }
    FilterLengthPointwise(r, lines, l => IsVisibleLine(l, search));
  }

  /** Two equally long sequences whose elements agree on `p` position by position filter to the same length. */
  lemma {:induction false} FilterLengthPointwise(a: seq<Line>, b: seq<Line>, p: Line -> bool)
    requires |a| == |b|
    requires forall i :: 0 <= i < |a| ==> p(a[i]) == p(b[i])
    ensures |Filter(a, p)| == |Filter(b, p)|
  {
    if |a| > 0 {
      FilterLengthPointwise(a[1..], b[1..], p);
    }
  }

  /**
   * `onToggleSelectLine`: flip `selected` of the first line with the given id. With no such
   * line the write lands on the array's `-1` property and no element changes.
   */
  function OnToggleSelectLine(lines: seq<Line>, id: int): (r: seq<Line>)
    ensures |r| == |lines|
    ensures forall i :: 0 <= i < |lines| && i != FindLineIndex(lines, id) ==> r[i] == lines[i]
    ensures var k := FindLineIndex(lines, id);
      k >= 0 ==> r[k].selected == !lines[k].selected && r[k].(selected := lines[k].selected) == lines[k]
  {
    var k := FindLineIndex(lines, id);
    if k == -1 then lines else lines[k := lines[k].(selected := !lines[k].selected)]
  }

  /** Toggling the same id twice restores the lines. */
  lemma ToggleInvolution(lines: seq<Line>, id: int)
    ensures OnToggleSelectLine(OnToggleSelectLine(lines, id), id) == lines
  {
    var once := OnToggleSelectLine(lines, id);
    var k := FindLineIndex(lines, id);
    assert forall i :: 0 <= i < |lines| ==> once[i].id == lines[i].id;
    SameIdsSameIndex(lines, once, id);
  }

  /** `findIndex` by id only looks at ids. */
  lemma {:induction false} SameIdsSameIndex(a: seq<Line>, b: seq<Line>, id: int)
    requires |a| == |b|
    requires forall i :: 0 <= i < |a| ==> a[i].id == b[i].id
    ensures FindLineIndex(a, id) == FindLineIndex(b, id)
  {
    if |a| > 0 && a[0].id != id {
      SameIdsSameIndex(a[1..], b[1..], id);
    }
  }

  /** When ids are distinct, exactly the line with that id changes. */
  lemma ToggleDistinctIds(lines: seq<Line>, id: int)
    requires forall i, j :: 0 <= i < j < |lines| ==> lines[i].id != lines[j].id
    ensures forall i :: 0 <= i < |lines| ==>
      OnToggleSelectLine(lines, id)[i].selected == (lines[i].selected != (lines[i].id == id))
  {
  }

  /** `clearSelections`: every line unselected, nothing else changes. */
  function ClearSelections(lines: seq<Line>): (r: seq<Line>)
    ensures |r| == |lines|
    ensures forall i :: 0 <= i < |lines| ==> !r[i].selected && r[i].(selected := lines[i].selected) == lines[i]
  {
    seq(|lines|, i requires 0 <= i < |lines| => lines[i].(selected := false))
  }

  lemma ClearIdempotent(lines: seq<Line>)
    ensures ClearSelections(ClearSelections(lines)) == ClearSelections(lines)
  {
  }

  /** Clearing forgets any earlier toggle or select-all. */
  lemma ClearAbsorbsSelection(lines: seq<Line>, id: int, search: string)
    ensures ClearSelections(OnToggleSelectLine(lines, id)) == ClearSelections(lines)
    ensures ClearSelections(SelectAllVisibleLines(lines, search)) == ClearSelections(lines)
  {
    var t := OnToggleSelectLine(lines, id);
    assert forall i :: 0 <= i < |lines| ==> t[i].(selected := false) == lines[i].(selected := false);
  }

  // ---------------------------------------------------------------- mode filter

  /** The visibility a mode toggle set gives a line of mode `m`. */
  function ModeVisible(m: Mode, modes: seq<string>): bool {
    match m
    case Bus => "bus" in modes
    case Rail => "train" in modes
    case OtherMode(_) => false
  }

  /** The mode-filter effect: rewrite `visible` from the active mode toggles. */
  function ApplyModeFilter(lines: seq<Line>, modes: seq<string>): (r: seq<Line>)
    ensures |r| == |lines|
    ensures forall i :: 0 <= i < |lines| ==> r[i].(visible := lines[i].visible) == lines[i]
    ensures forall i :: 0 <= i < |lines| ==>
      (r[i].visible <==> (lines[i].mode == Bus && "bus" in modes) || (lines[i].mode == Rail && "train" in modes))
  {
    seq(|lines|, i requires 0 <= i < |lines| => lines[i].(visible := ModeVisible(lines[i].mode, modes)))
  }

  /** The initial mode toggles, and what `resetVisibility` restores. */
  const InitialModes: seq<string> := ["bus", "train"]

  /** With both modes on, every bus and rail line is visible, and only those. */
  lemma ResetShowsBusAndRail(lines: seq<Line>)
    ensures forall i :: 0 <= i < |lines| ==>
      (ApplyModeFilter(lines, InitialModes)[i].visible <==> lines[i].mode.Bus? || lines[i].mode.Rail?)
  {
    assert "bus" in InitialModes && "train" in InitialModes;
  }

  /** Only the last filter counts, so filtering twice with the same modes is filtering once. */
  lemma ModeFilterLastWins(lines: seq<Line>, first: seq<string>, modes: seq<string>)
    ensures ApplyModeFilter(ApplyModeFilter(lines, first), modes) == ApplyModeFilter(lines, modes)
    ensures ApplyModeFilter(ApplyModeFilter(lines, modes), modes) == ApplyModeFilter(lines, modes)
  {
  }
}

=== FILE: metrics_page.dfy ===
/**
 * The older metrics page: the user picks line names, a year and a ridership column, and
 * the page adds that column up over the matching records. The option lists are the
 * distinct names and years of the data, and the total is printed with thousands separators.
 */
module MetricsPage {
  import opened Optional
  import opened Seqs
  import opened Text
  import opened DashboardTypes
  import opened Calc

  /** `data.lines.includes(metric.line_name) && metric.year === parseInt(data.year)`. */
  predicate Chosen(r: RidershipRecord, chosenLines: seq<string>, year: string) {
    r.lineName in chosenLines && ParseInt(year) == Some(r.year)
  }

  function ChosenOf(chosenLines: seq<string>, year: string): RidershipRecord -> bool {
    r => Chosen(r, chosenLines, year)
  }

  /** The records the form selects, in data order. */
  function ChosenRecords(recs: seq<RidershipRecord>, chosenLines: seq<string>, year: string): (r: seq<RidershipRecord>)
    ensures forall x :: x in r <==> x in recs && Chosen(x, chosenLines, year)
    ensures SubsequenceOf(r, recs)
  {
    Filter(recs, ChosenOf(chosenLines, year))
  }

  /** `onSubmit`: the chosen column summed over the chosen records, `null` adding nothing. */
  function Total(recs: seq<RidershipRecord>, chosenLines: seq<string>, year: string, stat: DayType): int {
    SumRidership(ChosenRecords(recs, chosenLines, year), stat)
  }

  /** Reference definition: one pass over the data, adding the column of each chosen record. */
  function RunningTotal(recs: seq<RidershipRecord>, chosenLines: seq<string>, year: string, stat: DayType): int {
    if |recs| == 0 then 0
    else
      var x := recs[|recs| - 1];
      RunningTotal(recs[..|recs| - 1], chosenLines, year, stat) +
        (if Chosen(x, chosenLines, year) then RidershipOrZero(x, stat) else 0)
  }

  /** Filtering then summing is the same as summing the chosen records in one pass. */
  lemma {:induction false} TotalIsRunningTotal(recs: seq<RidershipRecord>, chosenLines: seq<string>, year: string, stat: DayType)
    ensures Total(recs, chosenLines, year, stat) == RunningTotal(recs, chosenLines, year, stat)
  {
    if |recs| > 0 {
      var init := recs[..|recs| - 1];
      var x := recs[|recs| - 1];
      TotalIsRunningTotal(init, chosenLines, year, stat);
      SplitLast(recs);
      TotalSnoc(init, x, chosenLines, year, stat);
    }
  }

  /** Adding one record to the data adds its column to the total exactly when it is chosen. */
  lemma TotalSnoc(init: seq<RidershipRecord>, x: RidershipRecord, chosenLines: seq<string>, year: string, stat: DayType)
    ensures Total(init + [x], chosenLines, year, stat) ==
      Total(init, chosenLines, year, stat) + (if Chosen(x, chosenLines, year) then RidershipOrZero(x, stat) else 0)
  {
    FilterSnoc(init, x, ChosenOf(chosenLines, year));
    var tail: seq<RidershipRecord> := if Chosen(x, chosenLines, year) then [x] else [];
    SumRidershipAppend(ChosenRecords(init, chosenLines, year), tail, stat);
    if Chosen(x, chosenLines, year) {
      assert tail[..0] == [];
    }
  }

  /**
   * With an empty list of ticked names, or a year that does not parse, the total is 0.
   * (The form itself submits `false`, not an empty list, when no box is ticked.)
   */
  lemma TotalOfNothingChosen(recs: seq<RidershipRecord>, chosenLines: seq<string>, year: string, stat: DayType)
    requires |chosenLines| == 0 || ParseInt(year).None?
    ensures Total(recs, chosenLines, year, stat) == 0
  {
  }

  function Names(recs: seq<RidershipRecord>): seq<string> {
    seq(|recs|, i requires 0 <= i < |recs| => recs[i].lineName)
  }

  function Years(recs: seq<RidershipRecord>): seq<int> {
    seq(|recs|, i requires 0 <= i < |recs| => recs[i].year)
  }

  /** The line checkboxes: each line name of the data once, in order of first appearance. */
  function LineOptions(recs: seq<RidershipRecord>): (r: seq<string>)
    ensures NoDuplicates(r)
    ensures forall n :: n in r <==> n in Names(recs)
    ensures forall n :: n in r <==> exists i :: 0 <= i < |recs| && recs[i].lineName == n
    ensures forall a, b :: 0 <= a < b < |r| ==> IndexOf(Names(recs), r[a]) < IndexOf(Names(recs), r[b])
  {
    var names := Names(recs);
    assert forall n :: n in names <==> exists i :: 0 <= i < |recs| && recs[i].lineName == n by {
      forall n | exists i :: 0 <= i < |recs| && recs[i].lineName == n ensures n in names {
        var i :| 0 <= i < |recs| && recs[i].lineName == n;
        assert names[i] == n;
      }
    }
    Dedupe(names)
  }

  /** The year radio buttons: each year of the data once, in order of first appearance. */
  function YearOptions(recs: seq<RidershipRecord>): (r: seq<int>)
    ensures NoDuplicates(r)
    ensures forall y :: y in r <==> y in Years(recs)
    ensures forall y :: y in r <==> exists i :: 0 <= i < |recs| && recs[i].year == y
    ensures forall a, b :: 0 <= a < b < |r| ==> IndexOf(Years(recs), r[a]) < IndexOf(Years(recs), r[b])
  {
    var years := Years(recs);
    assert forall y :: y in years <==> exists i :: 0 <= i < |recs| && recs[i].year == y by {
      forall y | exists i :: 0 <= i < |recs| && recs[i].year == y ensures y in years {
        var i :| 0 <= i < |recs| && recs[i].year == y;
        assert years[i] == y;
      }
    }
    Dedupe(years)
  }

  /** `\w`: an ASCII letter, digit or underscore. */
  predicate IsWordChar(c: char) {
    IsDigit(c) || 'a' <= c <= 'z' || 'A' <= c <= 'Z' || c == '_'
  }

  /**
   * `/\B(?=(\d{3})+(?!\d))/` matches at position `p` of `s`: `p` is inside the string
   * between two word characters, and the run of digits starting at `p` has a length that
   * is a positive multiple of three.
   */
  predicate CommaAt(s: string, p: int)
    requires 0 <= p <= |s|
  {
    0 < p < |s| && IsWordChar(s[p - 1]) && DigitRun(s[p..]) > 0 && DigitRun(s[p..]) % 3 == 0
  }

  /** The characters of `s` from `p` on, with a comma inserted at every match position. */
  function Separated(s: string, p: nat): string
    requires p <= |s|
    decreases |s| - p
  {
    if p == |s| then ""
    else (if CommaAt(s, p) then "," else "") + [s[p]] + Separated(s, p + 1)
  }

  /** `s.replace(/\B(?=(\d{3})+(?!\d))/g, ',')`. */
  function FormatThousands(s: string): string {
    Separated(s, 0)
  }

  function RemoveCommas(s: string): string {
    Filter(s, (c: char) => c != ',')
  }

  lemma {:induction false} SeparatedRemoveCommas(s: string, p: nat)
    requires p <= |s|
    requires ',' !in s
    ensures RemoveCommas(Separated(s, p)) == s[p..]
    decreases |s| - p
  {
    if p < |s| {
      SeparatedRemoveCommas(s, p + 1);
      var sep := if CommaAt(s, p) then "," else "";
      FilterAppend(sep + [s[p]], Separated(s, p + 1), (c: char) => c != ',');
      FilterAppend(sep, [s[p]], (c: char) => c != ',');
      assert [s[p]][1..] == [];
      assert s[p..] == [s[p]] + s[p + 1..];
    }
  }

  /** Removing the separators from a formatted number gives back its decimal digits. */
  lemma FormatUngroups(n: int)
    ensures RemoveCommas(FormatThousands(IntToString(n))) == IntToString(n)
  {
    var s := IntToString(n);
    assert ',' !in s by {
      assert forall i :: 0 <= i < |s| ==> IsDigit(s[i]) || s[i] == '-';
    }
    SeparatedRemoveCommas(s, 0);
  }

  /** The `k` consecutive groups of three characters of `u`. */
  function Threes(u: string, k: nat): (r: seq<string>)
    requires |u| == 3 * k
    ensures |r| == k
    ensures forall i :: 0 <= i < |r| ==> |r[i]| == 3
    ensures AllDigits(u) ==> forall i :: 0 <= i < |r| ==> AllDigits(r[i])
  {
    if k == 0 then [] else [u[..3]] + Threes(u[3..], k - 1)
  }

  /** Concatenation of pieces. */
  function Concat(parts: seq<string>): string {
    if |parts| == 0 then "" else parts[0] + Concat(parts[1..])
  }

  lemma {:induction false} ConcatThrees(u: string, k: nat)
    requires |u| == 3 * k
    ensures Concat(Threes(u, k)) == u
  {
    if k > 0 {
      ConcatThrees(u[3..], k - 1);
      assert u == u[..3] + u[3..];
    }
  }

  /** Length of the leading group of a numeral with `n` digits. */
  function LeadLength(n: nat): (lead: nat)
    requires n > 0
    ensures 1 <= lead <= 3 && lead <= n && (n - lead) % 3 == 0
  {
    (n - 1) % 3 + 1
  }

  /** The digit groups of a numeral: a leading group of one to three digits, then groups of three. */
  function Groups(s: string): (r: seq<string>)
    requires |s| > 0
    ensures 1 <= |r| && 1 <= |r[0]| <= 3
    ensures forall i :: 1 <= i < |r| ==> |r[i]| == 3
    ensures Concat(r) == s
    ensures AllDigits(s) ==> forall i :: 0 <= i < |r| ==> AllDigits(r[i])
  {
    var lead := LeadLength(|s|);
    var k := (|s| - lead) / 3;
    ConcatThrees(s[lead..], k);
    assert s == s[..lead] + s[lead..];
    [s[..lead]] + Threes(s[lead..], k)
  }

  /** In a string of digits the pattern matches exactly at the inner positions a multiple of three from the end. */
  lemma CommaAtDigits(s: string, p: nat)
    requires AllDigits(s) && p <= |s|
    ensures CommaAt(s, p) <==> 0 < p < |s| && (|s| - p) % 3 == 0
  {
    DigitRunFrom(s, p);
    if 0 < p {
      assert IsDigit(s[p - 1]);
    }
  }

  /** Where the pattern does not match, the characters are copied unchanged. */
  lemma {:induction false} SeparatedPlain(s: string, p: nat, q: nat)
    requires p <= q <= |s|
    requires forall j :: p <= j < q ==> !CommaAt(s, j)
    ensures Separated(s, p) == s[p..q] + Separated(s, q)
    decreases q - p
  {
    if p < q {
      SeparatedPlain(s, p + 1, q);
      SeparatedStep(s, p);
      assert !CommaAt(s, p);
      ConcatAssoc([s[p]], s[p + 1..q], Separated(s, q));
      assert s[p..q] == [s[p]] + s[p + 1..q];
    }
  }

  /** From a group boundary on, the output is a comma before each of the `k` remaining groups. */
  lemma {:induction false} SeparatedFromBoundary(s: string, q: nat, k: nat)
    requires AllDigits(s) && 0 < q && |s| - q == 3 * k
    ensures Separated(s, q) == if k == 0 then "" else [','] + Join(Threes(s[q..], k), ',')
    decreases k
  {
    if k > 0 {
      var t := s[q..];
      var rest := Separated(s, q + 3);
      assert Separated(s, q) == [','] + s[q..q + 3] + rest by {
        SeparatedGroup(s, q, k);
      }
      assert Join(Threes(t, k), ',') == s[q..q + 3] + rest by {
        assert t[..3] == s[q..q + 3] && t[3..] == s[q + 3..];
        SeparatedFromBoundary(s, q + 3, k - 1);
        JoinThrees(t, k);
      }
      ConcatAssoc([','], s[q..q + 3], rest);
    }
  }

  /** At a boundary: a comma, then three digits copied, then the next boundary. */
  lemma SeparatedGroup(s: string, q: nat, k: nat)
    requires AllDigits(s) && 0 < q && |s| - q == 3 * k && k > 0
    ensures Separated(s, q) == [','] + s[q..q + 3] + Separated(s, q + 3)
  {
    CommaAtGroup(s, q, k);
    var rest := Separated(s, q + 3);
    SeparatedStep(s, q + 2);
    SeparatedStep(s, q + 1);
    SeparatedStep(s, q);
    assert Separated(s, q) == [','] + ([s[q]] + ([s[q + 1]] + ([s[q + 2]] + rest)));
    assert s[q..q + 3] == [s[q], s[q + 1], s[q + 2]];
  }

  /** At a group boundary the pattern matches, and at the next two positions it does not. */
  lemma CommaAtGroup(s: string, q: nat, k: nat)
    requires AllDigits(s) && 0 < q && |s| - q == 3 * k && k > 0
    ensures CommaAt(s, q) && !CommaAt(s, q + 1) && !CommaAt(s, q + 2)
  {
    DigitRunFrom(s, q);
    DigitRunFrom(s, q + 1);
    DigitRunFrom(s, q + 2);
    assert IsDigit(s[q - 1]) && IsDigit(s[q]) && IsDigit(s[q + 1]);
    assert |s| - (q + 1) == 3 * (k - 1) + 2;
    assert |s| - (q + 2) == 3 * (k - 1) + 1;
  }

  /** One character of the output: a comma first where the pattern matches. */
  lemma SeparatedStep(s: string, q: nat)
    requires q < |s|
    ensures Separated(s, q) == (if CommaAt(s, q) then [','] else []) + ([s[q]] + Separated(s, q + 1))
  {
  }

  lemma JoinThrees(u: string, k: nat)
    requires |u| == 3 * k && k > 0
    ensures Join(Threes(u, k), ',') == u[..3] + (if k == 1 then "" else [','] + Join(Threes(u[3..], k - 1), ','))
  {
    JoinCons(u[..3], Threes(u[3..], k - 1), ',');
  }

  /**
   * A natural number prints as its digit groups joined by commas: splitting the output at
   * the commas gives a leading group of one to three digits followed by groups of three.
   */
  lemma FormatGroups(n: nat)
    ensures Split(FormatThousands(NatToString(n)), ',') == Groups(NatToString(n))
  {
    var s := NatToString(n);
    FormatIsJoin(s);
    var g := Groups(s);
    forall i | 0 <= i < |g| ensures ',' !in g[i] {
      assert AllDigits(g[i]);
    }
    SplitJoin(g, ',');
  }

  lemma FormatIsJoin(s: string)
    requires AllDigits(s) && |s| > 0
    ensures FormatThousands(s) == Join(Groups(s), ',')
  {
    var lead := LeadLength(|s|);
    var k := (|s| - lead) / 3;
    forall j | 0 <= j < lead ensures !CommaAt(s, j) {
      CommaAtDigits(s, j);
    }
    SeparatedPlain(s, 0, lead);
    SeparatedFromBoundary(s, lead, k);
    JoinCons(s[..lead], Threes(s[lead..], k), ',');
    if k == 0 {
      assert s[..lead] == s;
    } else {
      ConcatAssoc(s[..lead], [','], Join(Threes(s[lead..], k), ','));
    }
  }
}

=== FILE: optional.dfy ===
/** The `undefined`/`null` of the dashboard's JavaScript values. */
module Optional {

  /** `None` stands for JavaScript's `undefined` or `null`, `Some(v)` for a present value. */
  datatype Option<+T> = None | Some(value: T) {

    /** The nullish-coalescing operator `x ?? d`. */
    function GetOr(d: T): T {
      match this
      case Some(v) => v
      case None => d
    }
  }
}

=== FILE: seqs.dfy ===
/** Sequence helpers shared by the dashboard's array code: `filter`, `indexOf`, de-duplication, sums. */
module Seqs {

  /** `xs.filter(p)`: the elements of `xs` that satisfy `p`, in their original order. */
  function Filter<T(!new)>(xs: seq<T>, p: T -> bool): (r: seq<T>)
    ensures |r| <= |xs|
    ensures forall x :: x in r <==> x in xs && p(x)
    ensures forall i :: 0 <= i < |r| ==> p(r[i])
    ensures SubsequenceOf(r, xs)
  {
    if |xs| == 0 then []
    else if p(xs[0]) then [xs[0]] + Filter(xs[1..], p)
    else Filter(xs[1..], p)
  }

  /** `a` is obtained from `b` by deleting elements (order is kept). */
  ghost predicate SubsequenceOf<T>(a: seq<T>, b: seq<T>)
    decreases |b|
  {
    if |a| == 0 then true
    else if |b| == 0 then false
    else if a[0] == b[0] then SubsequenceOf(a[1..], b[1..])
    else SubsequenceOf(a, b[1..])
  }

  /** Filtering distributes over concatenation. */
  lemma {:induction false} FilterAppend<T(!new)>(a: seq<T>, b: seq<T>, p: T -> bool)
    ensures Filter(a + b, p) == Filter(a, p) + Filter(b, p)
  {
    if |a| == 0 {
      assert a + b == b;
    } else {
      assert (a + b)[1..] == a[1..] + b;
      FilterAppend(a[1..], b, p);
    }
  }

  /** Filtering a sequence extended by one element. */
  lemma FilterSnoc<T(!new)>(xs: seq<T>, x: T, p: T -> bool)
    ensures Filter(xs + [x], p) == Filter(xs, p) + (if p(x) then [x] else [])
  {
    FilterAppend(xs, [x], p);
    assert [x][1..] == [];
  }

  /** Filtering twice with the same predicate is filtering once. */
  lemma {:induction false} FilterIdempotent<T(!new)>(xs: seq<T>, p: T -> bool)
    ensures Filter(Filter(xs, p), p) == Filter(xs, p)
  {
    if |xs| > 0 {
      FilterIdempotent(xs[1..], p);
      if p(xs[0]) {
        assert ([xs[0]] + Filter(xs[1..], p))[1..] == Filter(xs[1..], p);
      }
    }
  }

  /** Filtering keeps the multiset of the surviving elements. */
  lemma {:induction false} FilterMultiset<T(!new)>(xs: seq<T>, p: T -> bool)
    ensures multiset(Filter(xs, p)) <= multiset(xs)
    ensures forall x :: p(x) ==> multiset(Filter(xs, p))[x] == multiset(xs)[x]
  {
    if |xs| > 0 {
      FilterMultiset(xs[1..], p);
      assert xs == [xs[0]] + xs[1..];
    }
  }

  /** `xs.findIndex(p)`: the position of the first element satisfying `p`, or -1. */
  function FindFirst<T>(xs: seq<T>, p: T -> bool): (k: int)
    ensures -1 <= k < |xs|
    ensures k >= 0 ==> p(xs[k]) && forall j :: 0 <= j < k ==> !p(xs[j])
    ensures k == -1 ==> forall j :: 0 <= j < |xs| ==> !p(xs[j])
  {
    if |xs| == 0 then -1
    else if p(xs[0]) then 0
    else
      var k := FindFirst(xs[1..], p);
      if k == -1 then -1 else k + 1
  }

  /** Every sequence is a subsequence of itself. */
  lemma {:induction false} SubsequenceOfSelf<T>(xs: seq<T>)
    ensures SubsequenceOf(xs, xs)
  {
    if |xs| > 0 {
      SubsequenceOfSelf(xs[1..]);
    }
  }

  /** `xs.splice(pos, 1)` keeps the remaining elements in their order. */
  lemma {:induction false} SpliceOneSubsequence<T>(xs: seq<T>, pos: int)
    requires 0 <= pos < |xs|
    ensures SubsequenceOf(xs[..pos] + xs[pos + 1..], xs)
  {
    var r := xs[..pos] + xs[pos + 1..];
    if pos == 0 {
      assert r == xs[1..];
      if |r| > 0 && r[0] == xs[0] {
        SpliceOneSubsequence(xs[1..], 0);
        assert xs[1..][..0] + xs[1..][1..] == r[1..];
      } else {
        SubsequenceOfSelf(xs[1..]);
      }
    } else {
      SpliceOneSubsequence(xs[1..], pos - 1);
      assert r[0] == xs[0];
      assert xs[1..][..pos - 1] + xs[1..][pos..] == r[1..];
    }
  }

  /** No element occurs twice. */
  predicate NoDuplicates<T(==)>(xs: seq<T>) {
    forall i, j :: 0 <= i < j < |xs| ==> xs[i] != xs[j]
  }

  /** `xs.indexOf(v)`: the position of the first occurrence of `v`. */
  function IndexOf<T(==)>(xs: seq<T>, v: T): (k: nat)
    requires v in xs
    ensures k < |xs| && xs[k] == v
    ensures forall j :: 0 <= j < k ==> xs[j] != v
  {
    if xs[0] == v then 0 else 1 + IndexOf(xs[1..], v)
  }

  /**
   * `xs.filter((value, index, array) => array.indexOf(value) === index)` restricted to the
   * indices from `i` on: keeps an element exactly at the position of its first occurrence.
   */
  function DedupeFrom<T(==)>(xs: seq<T>, i: nat): seq<T>
    requires i <= |xs|
    decreases |xs| - i
  {
    if i == |xs| then []
    else if IndexOf(xs, xs[i]) == i then [xs[i]] + DedupeFrom(xs, i + 1)
    else DedupeFrom(xs, i + 1)
  }

  lemma {:induction false} DedupeFromProperties<T>(xs: seq<T>, i: nat)
    requires i <= |xs|
    ensures forall v :: v in DedupeFrom(xs, i) <==> v in xs && IndexOf(xs, v) >= i
    ensures forall a :: 0 <= a < |DedupeFrom(xs, i)| ==> IndexOf(xs, DedupeFrom(xs, i)[a]) >= i
    ensures forall a, b :: 0 <= a < b < |DedupeFrom(xs, i)| ==>
      IndexOf(xs, DedupeFrom(xs, i)[a]) < IndexOf(xs, DedupeFrom(xs, i)[b])
    decreases |xs| - i
  {
    if i < |xs| {
      DedupeFromProperties(xs, i + 1);
      var rest := DedupeFrom(xs, i + 1);
      forall v ensures v in DedupeFrom(xs, i) <==> v in xs && IndexOf(xs, v) >= i {
        if v in xs && IndexOf(xs, v) == i {
          assert v == xs[i];
        }
      }
    }
  }

  /** First-occurrence de-duplication of a whole array. */
  function Dedupe<T(==,!new)>(xs: seq<T>): (r: seq<T>)
    ensures NoDuplicates(r)
    ensures forall v :: v in r <==> v in xs
    ensures forall a, b :: 0 <= a < b < |r| ==> IndexOf(xs, r[a]) < IndexOf(xs, r[b])
  {
    DedupeFromProperties(xs, 0);
    var r := DedupeFrom(xs, 0);
    assert forall a, b :: 0 <= a < b < |r| ==> r[a] != r[b] by {
      forall a, b | 0 <= a < b < |r| ensures r[a] != r[b] {
        assert IndexOf(xs, r[a]) < IndexOf(xs, r[b]);
      }
    }
    r
  }

  /** An array without duplicates is its own de-duplication. */
  lemma DedupeOfDistinct<T(!new)>(xs: seq<T>)
    requires NoDuplicates(xs)
    ensures Dedupe(xs) == xs
  {
    DedupeFromDistinct(xs, 0);
  }

  lemma {:induction false} DedupeFromDistinct<T>(xs: seq<T>, i: nat)
    requires i <= |xs|
    requires NoDuplicates(xs)
    ensures DedupeFrom(xs, i) == xs[i..]
    decreases |xs| - i
  {
    if i < |xs| {
      DedupeFromDistinct(xs, i + 1);
      IndexOfDistinct(xs, i);
      calc {
        DedupeFrom(xs, i);
        [xs[i]] + DedupeFrom(xs, i + 1);
        [xs[i]] + xs[i + 1..];
        xs[i..];
      }
    }
  }

  /** In an array without duplicates every element's first occurrence is its own position. */
  lemma IndexOfDistinct<T>(xs: seq<T>, i: nat)
    requires i < |xs|
    requires NoDuplicates(xs)
    ensures IndexOf(xs, xs[i]) == i
  {
    var k := IndexOf(xs, xs[i]);
    assert xs[k] == xs[i];
  }

  /** A non-empty sequence is its prefix followed by its last element. */
  lemma SplitLast<T>(xs: seq<T>)
    requires |xs| > 0
    ensures xs == xs[..|xs| - 1] + [xs[|xs| - 1]]
  {
  }

  /** Concatenation is associative. */
  lemma ConcatAssoc<T>(a: seq<T>, b: seq<T>, c: seq<T>)
    ensures a + b + c == a + (b + c)
  {
  }

  /** Sum of an integer sequence, folded from the left like `reduce((a, b) => a + b, 0)`. */
  function SumInt(xs: seq<int>): int {
    if |xs| == 0 then 0 else SumInt(xs[..|xs| - 1]) + xs[|xs| - 1]
  }

  /** Sum of a real sequence, folded from the left. */
  function SumReal(xs: seq<real>): real {
    if |xs| == 0 then 0.0 else SumReal(xs[..|xs| - 1]) + xs[|xs| - 1]
  }

  lemma {:induction false} SumIntAppend(a: seq<int>, b: seq<int>)
    ensures SumInt(a + b) == SumInt(a) + SumInt(b)
    decreases |b|
  {
    if |b| > 0 {
      assert (a + b)[..|a + b| - 1] == a + b[..|b| - 1];
      SumIntAppend(a, b[..|b| - 1]);
    } else {
      assert a + b == a;
    }
  }

  lemma {:induction false} SumRealAppend(a: seq<real>, b: seq<real>)
    ensures SumReal(a + b) == SumReal(a) + SumReal(b)
    decreases |b|
  {
    if |b| > 0 {
      assert (a + b)[..|a + b| - 1] == a + b[..|b| - 1];
      SumRealAppend(a, b[..|b| - 1]);
    } else {
      assert a + b == a;
    }
  }
}

=== FILE: sorting.dfy ===
/**
 * A stable sort driven by a "less than or equal" relation, standing for both
 * `Array.prototype.sort(comparator)` (stable since ES2019) and `lodash.orderBy`.
 * A comparator `cmp` is used through `le(a, b) == (cmp(a, b) <= 0)`.
 */
module Sorting {

  /** `le` is total and transitive: a valid ordering for a comparison sort. */
  ghost predicate TotalPreorder<T(!new)>(le: (T, T) -> bool) {
    && (forall a, b :: le(a, b) || le(b, a))
    && (forall a, b, c :: le(a, b) && le(b, c) ==> le(a, c))
  }

  ghost predicate Sorted<T>(xs: seq<T>, le: (T, T) -> bool) {
    forall i, j :: 0 <= i < j < |xs| ==> le(xs[i], xs[j])
  }

  /** Places `x` after the last element of `s` that is not greater than `x`. */
  function Insert<T>(x: T, s: seq<T>, le: (T, T) -> bool): (r: seq<T>)
    ensures multiset(r) == multiset(s) + multiset{x}
    ensures |r| == |s| + 1
  {
    if |s| == 0 then [x]
    else if le(s[|s| - 1], x) then s + [x]
    else
      assert s == s[..|s| - 1] + [s[|s| - 1]];
      Insert(x, s[..|s| - 1], le) + [s[|s| - 1]]
  }

  /** Insertion sort: each element is inserted, in input order, into the sorted prefix. */
  function SortBy<T>(xs: seq<T>, le: (T, T) -> bool): (r: seq<T>)
    ensures multiset(r) == multiset(xs)
    ensures |r| == |xs|
  {
    if |xs| == 0 then []
    else
      assert xs == xs[..|xs| - 1] + [xs[|xs| - 1]];
      Insert(xs[|xs| - 1], SortBy(xs[..|xs| - 1], le), le)
  }

  lemma {:induction false} InsertSorted<T(!new)>(x: T, s: seq<T>, le: (T, T) -> bool)
    requires TotalPreorder(le)
    requires Sorted(s, le)
    ensures Sorted(Insert(x, s, le), le)
  {
    if |s| > 0 {
      var last := s[|s| - 1];
      if le(last, x) {
        assert forall i :: 0 <= i < |s| ==> le(s[i], x) by {
          forall i | 0 <= i < |s| ensures le(s[i], x) {
            if i < |s| - 1 { assert le(s[i], last); }
          }
        }
      } else {
        var init := s[..|s| - 1];
        InsertSorted(x, init, le);
        var r := Insert(x, init, le);
        assert le(x, last);
        forall i | 0 <= i < |r| ensures le(r[i], last) {
          assert r[i] in multiset(r);
          if r[i] != x {
            assert r[i] in multiset(init);
            var k :| 0 <= k < |init| && init[k] == r[i];
            assert le(s[k], s[|s| - 1]);
          }
        }
      }
    }
  }

  /** `SortBy` produces an ordering that respects `le`. */
  lemma {:induction false} SortBySorted<T(!new)>(xs: seq<T>, le: (T, T) -> bool)
    requires TotalPreorder(le)
    ensures Sorted(SortBy(xs, le), le)
  {
    if |xs| > 0 {
      SortBySorted(xs[..|xs| - 1], le);
      InsertSorted(xs[|xs| - 1], SortBy(xs[..|xs| - 1], le), le);
    }
  }

  /** Sorting an already sorted sequence changes nothing (the sort is stable). */
  lemma {:induction false} SortBySortedIdentity<T>(xs: seq<T>, le: (T, T) -> bool)
    requires Sorted(xs, le)
    ensures SortBy(xs, le) == xs
  {
    if |xs| > 0 {
      var init := xs[..|xs| - 1];
      assert Sorted(init, le);
      SortBySortedIdentity(init, le);
      if |init| > 0 {
        assert le(init[|init| - 1], xs[|xs| - 1]);
      }
      assert init + [xs[|xs| - 1]] == xs;
    }
  }

  /** Every element is related by `le` to both of its sides; a sorted sequence's ends are its extremes. */
  lemma SortedEnds<T>(xs: seq<T>, le: (T, T) -> bool, x: T)
    requires Sorted(xs, le)
    requires x in xs
    ensures xs[0] == x || le(xs[0], x)
    ensures xs[|xs| - 1] == x || le(x, xs[|xs| - 1])
  {
    var k :| 0 <= k < |xs| && xs[k] == x;
  }

  ghost predicate NoTies<T>(xs: seq<T>, le: (T, T) -> bool) {
    forall x, y :: x in xs && y in xs && le(x, y) && le(y, x) ==> x == y
  }

  lemma SortedSameHead<T>(a: seq<T>, b: seq<T>, le: (T, T) -> bool)
    requires Sorted(a, le) && Sorted(b, le)
    requires multiset(a) == multiset(b)
    requires NoTies(a, le)
    requires |a| > 0
    ensures |b| > 0 && a[0] == b[0]
  {
    assert a[0] in multiset(b);
    assert b[0] in multiset(a);
    SortedEnds(a, le, b[0]);
    SortedEnds(b, le, a[0]);
  }

  lemma SortedTails<T>(a: seq<T>, b: seq<T>, le: (T, T) -> bool)
    requires Sorted(a, le) && Sorted(b, le)
    requires multiset(a) == multiset(b)
    requires NoTies(a, le)
    requires |a| > 0 && |b| > 0 && a[0] == b[0]
    ensures Sorted(a[1..], le) && Sorted(b[1..], le)
    ensures multiset(a[1..]) == multiset(b[1..])
    ensures NoTies(a[1..], le)
  {
    assert a == [a[0]] + a[1..];
    assert b == [b[0]] + b[1..];
    calc {
      multiset(a[1..]);
      multiset(a) - multiset{a[0]};
      multiset(b) - multiset{b[0]};
      multiset(b[1..]);
    }
    forall x, y | x in a[1..] && y in a[1..] && le(x, y) && le(y, x) ensures x == y {
      assert x in a && y in a;
    }
  }

  /** Two sorted arrangements of the same elements are equal when `le` has no ties among them. */
  lemma {:induction false} SortedUnique<T>(a: seq<T>, b: seq<T>, le: (T, T) -> bool)
    requires Sorted(a, le) && Sorted(b, le)
    requires multiset(a) == multiset(b)
    requires NoTies(a, le)
    ensures a == b
    decreases |a|
  {
    if |a| > 0 {
      SortedSameHead(a, b, le);
      SortedTails(a, b, le);
      SortedUnique(a[1..], b[1..], le);
      assert a == [a[0]] + a[1..];
      assert b == [b[0]] + b[1..];
    } else {
      assert |multiset(b)| == 0;
    }
  }

  /** For a total preorder that relates no two different elements both ways, the sort is order independent. */
  lemma SortByPermutationInvariant<T(!new)>(xs: seq<T>, ys: seq<T>, le: (T, T) -> bool)
    requires TotalPreorder(le)
    requires multiset(xs) == multiset(ys)
    requires NoTies(xs, le)
    ensures SortBy(xs, le) == SortBy(ys, le)
  {
    SortBySorted(xs, le);
    SortBySorted(ys, le);
    var a := SortBy(xs, le);
    forall x, y | x in a && y in a && le(x, y) && le(y, x) ensures x == y {
      assert x in multiset(xs) && y in multiset(xs);
    }
    SortedUnique(a, SortBy(ys, le), le);
  }
}

=== FILE: summary.dfy ===
/**
 * `SummaryData`: totals over the selected lines of the change in ridership, the average
 * daily ridership and the ending ridership, each missing metric counting as zero.
 */
module Summary {
  import opened Optional
  import opened Seqs
  import opened DashboardTypes

  /** The three totals the summary panel shows (the older panel shows the first two). */
  datatype SummaryTotals = SummaryTotals(change: int, average: real, ending: int)

  const NoTotals: SummaryTotals := SummaryTotals(0, 0.0, 0)

  function Selected(lines: seq<Line>): (r: seq<Line>)
    ensures forall l :: l in r <==> l in lines && l.selected
  {
    Filter(lines, (l: Line) => l.selected)
  }

  function Changes(ls: seq<Line>): seq<int> {
    seq(|ls|, i requires 0 <= i < |ls| => ls[i].changeInRidership.GetOr(0))
  }

  function Averages(ls: seq<Line>): seq<real> {
    seq(|ls|, i requires 0 <= i < |ls| => ls[i].averageRidership.GetOr(0.0))
  }

  function Endings(ls: seq<Line>): seq<int> {
    seq(|ls|, i requires 0 <= i < |ls| => ls[i].endingRidership.GetOr(0))
  }

  /** The panel's computation: filter the selected lines, map each metric with `?? 0`, reduce with `+`. */
  function SummaryData(lines: seq<Line>): SummaryTotals {
    var sel := Selected(lines);
    SummaryTotals(SumInt(Changes(sel)), SumReal(Averages(sel)), SumInt(Endings(sel)))
  }

  /** What one line adds to the totals. */
  function Contribution(l: Line): SummaryTotals {
    if l.selected then
      SummaryTotals(l.changeInRidership.GetOr(0), l.averageRidership.GetOr(0.0), l.endingRidership.GetOr(0))
    else NoTotals
  }

  function Plus(a: SummaryTotals, b: SummaryTotals): SummaryTotals {
    SummaryTotals(a.change + b.change, a.average + b.average, a.ending + b.ending)
  }

  /** Reference definition: add up every line's contribution, one line at a time. */
  function FoldTotals(lines: seq<Line>): SummaryTotals {
    if |lines| == 0 then NoTotals else Plus(FoldTotals(lines[..|lines| - 1]), Contribution(lines[|lines| - 1]))
  }

  /** The filter-map-reduce pipeline equals the line-by-line fold. */
  lemma {:induction false} SummaryIsFold(lines: seq<Line>)
    ensures SummaryData(lines) == FoldTotals(lines)
  {
    if |lines| > 0 {
      var init := lines[..|lines| - 1];
      var last := lines[|lines| - 1];
      SummaryIsFold(init);
      SplitLast(lines);
      SummaryStep(init, last);
    }
  }

  lemma SummaryStep(init: seq<Line>, last: Line)
    ensures SummaryData(init + [last]) == Plus(SummaryData(init), Contribution(last))
  {
    SelectedSnoc(init, last);
    if last.selected {
      var a := Selected(init);
      ChangeSnoc(a, last);
      AverageSnoc(a, last);
      EndingSnoc(a, last);
    } else {
      assert Selected(init) + [] == Selected(init);
    }
  }

  lemma SelectedSnoc(init: seq<Line>, last: Line)
    ensures Selected(init + [last]) == Selected(init) + (if last.selected then [last] else [])
  {
    FilterAppend(init, [last], (l: Line) => l.selected);
    assert [last][1..] == [];
  }

  lemma ChangeSnoc(a: seq<Line>, last: Line)
    ensures SumInt(Changes(a + [last])) == SumInt(Changes(a)) + last.changeInRidership.GetOr(0)
  {
    assert Changes(a + [last])[..|a|] == Changes(a);
  }

  lemma AverageSnoc(a: seq<Line>, last: Line)
    ensures SumReal(Averages(a + [last])) == SumReal(Averages(a)) + last.averageRidership.GetOr(0.0)
  {
    assert Averages(a + [last])[..|a|] == Averages(a);
  }

  lemma EndingSnoc(a: seq<Line>, last: Line)
    ensures SumInt(Endings(a + [last])) == SumInt(Endings(a)) + last.endingRidership.GetOr(0)
  {
    assert Endings(a + [last])[..|a|] == Endings(a);
  }

  lemma {:induction false} FoldTotalsAppend(a: seq<Line>, b: seq<Line>)
    ensures FoldTotals(a + b) == Plus(FoldTotals(a), FoldTotals(b))
    decreases |b|
  {
    if |b| == 0 {
      assert a + b == a;
    } else {
      assert (a + b)[..|a + b| - 1] == a + b[..|b| - 1];
      FoldTotalsAppend(a, b[..|b| - 1]);
    }
  }

  /** The totals of two lists of lines put together are the sums of their totals. */
  lemma SummaryAppend(a: seq<Line>, b: seq<Line>)
    ensures SummaryData(a + b) == Plus(SummaryData(a), SummaryData(b))
  {
    SummaryIsFold(a + b);
    SummaryIsFold(a);
    SummaryIsFold(b);
    FoldTotalsAppend(a, b);
  }

  /** Unselected lines do not count: the totals of the list equal those of its selected lines. */
  lemma SummarySelectedOnly(lines: seq<Line>)
    ensures SummaryData(lines) == SummaryData(Selected(lines))
  {
    FilterIdempotent(lines, (l: Line) => l.selected);
  }

  /** With no line selected all totals are zero. */
  lemma {:induction false} SummaryNoneSelected(lines: seq<Line>)
    requires forall i :: 0 <= i < |lines| ==> !lines[i].selected
    ensures SummaryData(lines) == NoTotals
  {
    FoldNoneSelected(lines);
    SummaryIsFold(lines);
  }

  lemma {:induction false} FoldNoneSelected(lines: seq<Line>)
    requires forall i :: 0 <= i < |lines| ==> !lines[i].selected
    ensures FoldTotals(lines) == NoTotals
  {
    if |lines| > 0 {
      FoldNoneSelected(lines[..|lines| - 1]);
    }
  }

  /** Changing anything but the selection and the three metrics leaves the totals alone. */
  lemma {:induction false} SummaryIgnoresOtherFields(a: seq<Line>, b: seq<Line>)
    requires |a| == |b|
    requires forall i :: 0 <= i < |a| ==> Contribution(a[i]) == Contribution(b[i])
    ensures SummaryData(a) == SummaryData(b)
  {
    FoldSameContributions(a, b);
    SummaryIsFold(a);
    SummaryIsFold(b);
  }

  lemma {:induction false} FoldSameContributions(a: seq<Line>, b: seq<Line>)
    requires |a| == |b|
    requires forall i :: 0 <= i < |a| ==> Contribution(a[i]) == Contribution(b[i])
    ensures FoldTotals(a) == FoldTotals(b)
  {
    if |a| > 0 {
      FoldSameContributions(a[..|a| - 1], b[..|b| - 1]);
    }
  }
}

=== FILE: text.dfy ===
/**
 * The JavaScript string operations the dashboard relies on: number-to-string and
 * `Number(...)` conversion, `<` on strings, `startsWith`, `includes`, lower-casing,
 * `split`/`join`, and reading CRLF-terminated lines back.
 */
module Text {
  import opened Optional

  predicate IsDigit(c: char) {
    '0' <= c <= '9'
  }

  predicate AllDigits(s: string) {
    forall i :: 0 <= i < |s| ==> IsDigit(s[i])
  }

  function DigitChar(d: nat): (c: char)
    requires d < 10
    ensures IsDigit(c)
  {
    (48 + d) as char
  }

  function DigitValue(c: char): (d: nat)
    requires IsDigit(c)
    ensures d < 10
  {
    c as int - 48
  }

  /** Decimal digits of a natural number, most significant first, without leading zeros. */
  function NatToString(n: nat): (s: string)
    ensures |s| > 0 && AllDigits(s)
    ensures |s| > 1 ==> s[0] != '0'
  {
    if n < 10 then [DigitChar(n)] else NatToString(n / 10) + [DigitChar(n % 10)]
  }

  /** `String(n)` / `` `${n}` `` for an integer. */
  function IntToString(n: int): (s: string)
    ensures |s| > 0
    ensures n < 0 <==> s[0] == '-'
    ensures forall i :: 0 <= i < |s| ==> IsDigit(s[i]) || s[i] == '-'
  {
    if n < 0 then "-" + NatToString(-n) else NatToString(n)
  }

  /** Value of a string of decimal digits (empty string reads as 0). */
  function DigitsValue(s: string): nat
    requires AllDigits(s)
  {
    if |s| == 0 then 0 else 10 * DigitsValue(s[..|s| - 1]) + DigitValue(s[|s| - 1])
  }

  /**
   * `Number(s)` restricted to the shapes the data can take: the empty string is 0,
   * ASCII digits with an optional leading `-` are their decimal value, anything else
   * is `NaN` (`None`).
   */
  function Number(s: string): Option<int> {
    if |s| == 0 then Some(0)
    else if AllDigits(s) then Some(DigitsValue(s))
    else if s[0] == '-' && |s| > 1 && AllDigits(s[1..]) then Some(0 - DigitsValue(s[1..]))
    else None
  }

  /** Length of the run of ASCII digits at the start of `s`. */
  function DigitRun(s: string): (k: nat)
    ensures k <= |s|
    ensures forall i :: 0 <= i < k ==> IsDigit(s[i])
    ensures k < |s| ==> !IsDigit(s[k])
  {
    if |s| == 0 || !IsDigit(s[0]) then 0 else 1 + DigitRun(s[1..])
  }

  /**
   * `parseInt(s)` on strings without leading white space: an optional sign, then the
   * longest run of digits; anything after the run is ignored, and no digit at all is `NaN`.
   */
  function ParseInt(s: string): Option<int> {
    var body := if |s| > 0 && (s[0] == '-' || s[0] == '+') then s[1..] else s;
    var k := DigitRun(body);
    if k == 0 then None
    else if |s| > 0 && s[0] == '-' then Some(0 - DigitsValue(body[..k]))
    else Some(DigitsValue(body[..k]))
  }

  lemma {:induction false} DigitRunAll(s: string)
    requires AllDigits(s)
    ensures DigitRun(s) == |s|
  {
    if |s| > 0 {
      DigitRunAll(s[1..]);
    }
  }

  /** In a string of digits the run from any position reaches the end. */
  lemma DigitRunFrom(s: string, p: nat)
    requires AllDigits(s) && p <= |s|
    ensures DigitRun(s[p..]) == |s| - p
  {
    assert AllDigits(s[p..]);
    DigitRunAll(s[p..]);
  }

  /** `parseInt(String(n)) === n`. */
  lemma ParseIntOfIntToString(n: int)
    ensures ParseInt(IntToString(n)) == Some(n)
  {
    var s := IntToString(n);
    if n < 0 {
      assert s[1..] == NatToString(-n);
      DigitRunAll(s[1..]);
      assert s[1..][..|s| - 1] == s[1..];
      DigitsValueOfNatToString(-n);
    } else {
      DigitRunAll(s);
      assert s[..|s|] == s;
      DigitsValueOfNatToString(n);
    }
  }

  lemma {:induction false} DigitsValueOfNatToString(n: nat)
    ensures DigitsValue(NatToString(n)) == n
  {
    if n >= 10 {
      var s := NatToString(n);
      DigitsValueOfNatToString(n / 10);
      assert s[..|s| - 1] == NatToString(n / 10);
    }
  }

  /** `Number(String(n)) === n`: the decimal rendering of an integer reads back as that integer. */
  lemma NumberOfIntToString(n: int)
    ensures Number(IntToString(n)) == Some(n)
  {
    if n < 0 {
      var s := IntToString(n);
      assert !IsDigit(s[0]);
      assert s[1..] == NatToString(-n);
      DigitsValueOfNatToString(-n);
    } else {
      DigitsValueOfNatToString(n);
    }
  }

  /** Different integers render differently. */
  lemma IntToStringInjective(a: int, b: int)
    requires IntToString(a) == IntToString(b)
    ensures a == b
  {
    NumberOfIntToString(a);
    NumberOfIntToString(b);
  }

  /**
   * JavaScript's `a < b` on strings, taken character by character with a proper prefix
   * first; for the ASCII names of the catalogue this is JavaScript's code-unit order.
   */
  predicate LexLess(a: string, b: string) {
    if |b| == 0 then false
    else if |a| == 0 then true
    else if a[0] != b[0] then a[0] < b[0]
    else LexLess(a[1..], b[1..])
  }

  lemma {:induction false} LexLessIrreflexive(a: string)
    ensures !LexLess(a, a)
  {
    if |a| > 0 {
      LexLessIrreflexive(a[1..]);
    }
  }

  lemma {:induction false} LexLessAsymmetric(a: string, b: string)
    ensures !(LexLess(a, b) && LexLess(b, a))
  {
    if |a| > 0 && |b| > 0 && a[0] == b[0] {
      LexLessAsymmetric(a[1..], b[1..]);
    }
  }

  lemma {:induction false} LexLessTotal(a: string, b: string)
    ensures a == b || LexLess(a, b) || LexLess(b, a)
  {
    if |a| > 0 && |b| > 0 && a[0] == b[0] {
      LexLessTotal(a[1..], b[1..]);
      if a[1..] == b[1..] {
        assert a == [a[0]] + a[1..] && b == [b[0]] + b[1..];
      }
    }
  }

  lemma {:induction false} LexLessTransitive(a: string, b: string, c: string)
    requires LexLess(a, b) && LexLess(b, c)
    ensures LexLess(a, c)
  {
    if |a| > 0 && a[0] == b[0] && b[0] == c[0] {
      LexLessTransitive(a[1..], b[1..], c[1..]);
    }
  }

  /** `s.startsWith(p)`. */
  predicate StartsWith(s: string, p: string) {
    |p| <= |s| && s[..|p|] == p
  }

  lemma StartsWithAppend(p: string, s: string)
    ensures StartsWith(p + s, p)
  {
    assert (p + s)[..|p|] == p;
  }

  /** `s.includes(t)`: `t` occurs in `s` at some position. */
  predicate Includes(s: string, t: string)
    decreases |s|
  {
    StartsWith(s, t) || (|s| > 0 && Includes(s[1..], t))
  }

  /** `t` appears in `s` starting at offset `i`. */
  ghost predicate OccursAt(s: string, t: string, i: int) {
    0 <= i && i + |t| <= |s| && s[i..i + |t|] == t
  }

  /** `Includes` agrees with "there is an offset at which `t` appears in `s`". */
  lemma {:induction false} IncludesIff(s: string, t: string)
    ensures Includes(s, t) <==> exists i :: OccursAt(s, t, i)
    decreases |s|
  {
    if StartsWith(s, t) {
      assert OccursAt(s, t, 0);
    }
    if |s| > 0 {
      IncludesIff(s[1..], t);
      if Includes(s[1..], t) {
        var i :| OccursAt(s[1..], t, i);
        assert s[1..][i..i + |t|] == s[i + 1..i + 1 + |t|];
        assert OccursAt(s, t, i + 1);
      }
      if exists i :: OccursAt(s, t, i) {
        var i :| OccursAt(s, t, i);
        if i > 0 {
          assert s[1..][i - 1..i - 1 + |t|] == s[i..i + |t|];
          assert OccursAt(s[1..], t, i - 1);
        }
      }
    } else if exists i :: OccursAt(s, t, i) {
      var i :| OccursAt(s, t, i);
      assert |t| == 0;
    }
  }

  /** A text that contains `t + u` contains `t`: a longer search matches fewer names. */
  lemma IncludesPrefix(s: string, t: string, u: string)
    requires Includes(s, t + u)
    ensures Includes(s, t)
  {
    IncludesIff(s, t + u);
    IncludesIff(s, t);
    var i :| OccursAt(s, t + u, i);
    assert s[i..i + |t|] == (t + u)[..|t|];
    assert OccursAt(s, t, i);
  }

  /** ASCII lower-casing of one character. */
  function LowerChar(c: char): char {
    if 'A' <= c <= 'Z' then (c as int + 32) as char else c
  }

  /** `s.toLocaleLowerCase()`, restricted to ASCII letters. */
  function Lower(s: string): (r: string)
    ensures |r| == |s|
    ensures forall i :: 0 <= i < |r| ==> !('A' <= r[i] <= 'Z')
    ensures forall i :: 0 <= i < |s| && !('A' <= s[i] <= 'Z') ==> r[i] == s[i]
    ensures forall i :: 0 <= i < |s| && 'A' <= s[i] <= 'Z' ==>
      'a' <= r[i] <= 'z' && r[i] as int == s[i] as int + ('a' as int - 'A' as int)
  {
    seq(|s|, i requires 0 <= i < |s| => LowerChar(s[i]))
  }

  /** Lower-casing twice is lower-casing once. */
  lemma LowerIdempotent(s: string)
    ensures Lower(Lower(s)) == Lower(s)
  {
    var t := Lower(s);
    assert forall i :: 0 <= i < |t| ==> Lower(t)[i] == t[i];
  }

  /** `parts.join(sep)` for a one-character separator. */
  function Join(parts: seq<string>, sep: char): string {
    if |parts| == 0 then ""
    else if |parts| == 1 then parts[0]
    else parts[0] + [sep] + Join(parts[1..], sep)
  }

  lemma JoinCons(a: string, rest: seq<string>, sep: char)
    ensures Join([a] + rest, sep) == if |rest| == 0 then a else a + [sep] + Join(rest, sep)
  {
    assert ([a] + rest)[1..] == rest;
  }

  /** `s.split(sep)` for a one-character separator; always yields at least one piece. */
  function Split(s: string, sep: char): (r: seq<string>)
    ensures |r| > 0
  {
    if |s| == 0 then [""]
    else
      var rest := Split(s[1..], sep);
      if s[0] == sep then [""] + rest else [[s[0]] + rest[0]] + rest[1..]
  }

  lemma {:induction false} SplitNoSeparator(p: string, sep: char)
    requires sep !in p
    ensures Split(p, sep) == [p]
  {
    if |p| > 0 {
      SplitNoSeparator(p[1..], sep);
      assert [p[0]] + p[1..] == p;
    }
  }

  lemma {:induction false} SplitPiece(p: string, sep: char, rest: string)
    requires sep !in p
    ensures Split(p + [sep] + rest, sep) == [p] + Split(rest, sep)
  {
    if |p| == 0 {
      assert p + [sep] + rest == [sep] + rest;
      assert ([sep] + rest)[1..] == rest;
    } else {
      var s := p + [sep] + rest;
      assert s[1..] == p[1..] + [sep] + rest;
      SplitPiece(p[1..], sep, rest);
      assert [p[0]] + p[1..] == p;
    }
  }

  /** Splitting a join recovers the pieces when no piece contains the separator. */
  lemma {:induction false} SplitJoin(parts: seq<string>, sep: char)
    requires |parts| > 0
    requires forall i :: 0 <= i < |parts| ==> sep !in parts[i]
    ensures Split(Join(parts, sep), sep) == parts
  {
    if |parts| == 1 {
      SplitNoSeparator(parts[0], sep);
    } else {
      SplitJoin(parts[1..], sep);
      SplitPiece(parts[0], sep, Join(parts[1..], sep));
      assert parts == [parts[0]] + parts[1..];
    }
  }

  const CRLF: string := "\r\n"

  /** Lines each followed by CRLF, concatenated (the CSV body). */
  function Terminated(rows: seq<string>): string {
    if |rows| == 0 then "" else rows[0] + CRLF + Terminated(rows[1..])
  }

  /** Reads CRLF-terminated lines; `cur` is the line read so far, an unterminated tail is dropped. */
  function ReadLines(s: string, cur: string): seq<string>
    decreases |s|
  {
    if |s| == 0 then []
    else if |s| >= 2 && s[0] == '\r' && s[1] == '\n' then [cur] + ReadLines(s[2..], "")
    else ReadLines(s[1..], cur + [s[0]])
  }

  lemma {:induction false} ReadLinesRow(row: string, rest: string, cur: string)
    requires '\r' !in row
    ensures ReadLines(row + CRLF + rest, cur) == [cur + row] + ReadLines(rest, "")
  {
    var s := row + CRLF + rest;
    if |row| == 0 {
      assert s == CRLF + rest;
      assert s[2..] == rest;
      assert cur + row == cur;
    } else {
      assert s[0] == row[0];
      assert s[1..] == row[1..] + CRLF + rest;
      ReadLinesRow(row[1..], rest, cur + [row[0]]);
      assert cur + [row[0]] + row[1..] == cur + row;
    }
  }

  /** Reading the lines of a CRLF-terminated text gives back its rows when no row holds a CR. */
  lemma {:induction false} ReadLinesTerminated(rows: seq<string>)
    requires forall i :: 0 <= i < |rows| ==> '\r' !in rows[i]
    ensures ReadLines(Terminated(rows), "") == rows
  {
    if |rows| > 0 {
      ReadLinesTerminated(rows[1..]);
      ReadLinesRow(rows[0], Terminated(rows[1..]), "");
      assert "" + rows[0] == rows[0];
      assert rows == [rows[0]] + rows[1..];
    }
  }

  lemma {:induction false} TerminatedAppend(a: seq<string>, b: seq<string>)
    ensures Terminated(a + b) == Terminated(a) + Terminated(b)
  {
    if |a| == 0 {
      assert a + b == b;
    } else {
      assert (a + b)[1..] == a[1..] + b;
      TerminatedAppend(a[1..], b);
    }
  }

  lemma LowerAppend(s: string, t: string)
    ensures Lower(s + t) == Lower(s) + Lower(t)
  {
  }
}

=== FILE: types.dfy ===
/**
 * The dashboard's records: monthly ridership observations, catalogue lines with their
 * UI state and derived metrics, and the per-line buckets an aggregation pass produces.
 */
module DashboardTypes {
  import opened Optional
  import opened Seqs

  /** `DayOfWeek`: which of a record's three ridership columns is read. */
  datatype DayType = Weekday | Saturday | Sunday

  /**
   * `RidershipRecord` (also called `Metric`): estimated average daily ridership of one
   * line in one month; `None` is a `null` observation.
   */
  datatype RidershipRecord = RidershipRecord(
    year: int,
    month: int,
    lineName: string,
    weekday: Option<int>,
    saturday: Option<int>,
    sunday: Option<int>)

  /** `record[dayOfWeek]`. */
  function Ridership(r: RidershipRecord, d: DayType): Option<int> {
    match d
    case Weekday => r.weekday
    case Saturday => r.saturday
    case Sunday => r.sunday
  }

  /** `record[dayOfWeek] ?? 0`. */
  function RidershipOrZero(r: RidershipRecord, d: DayType): int {
    Ridership(r, d).GetOr(0)
  }

  /**
   * `new Date(year, month)`, always on the first day at midnight, as a count of months.
   * JavaScript carries an out-of-range month into the year, which this count does too.
   * For years from 100 on it orders dates exactly as `getTime()` does; JavaScript reads
   * years 0 to 99 as 1900 to 1999, which this count does not.
   */
  function MonthIndex(year: int, month: int): int {
    year * 12 + month
  }

  /** A mode string other than `'Bus'` and `'Rail'`, the two the code tests for. */
  type OtherModeName = s: string | s != "Bus" && s != "Rail"

  /** Transit mode of a line; the metadata may hold a value other than the two known ones. */
  datatype Mode = Bus | Rail | OtherMode(name: OtherModeName)

  /** An entry of the line metadata file: `{ line, mode, provider }`. */
  datatype LineJson = LineJson(line: int, mode: Mode, provider: string)

  /** `Line`: a catalogue line with its selection/visibility state and derived metrics. */
  datatype Line = Line(
    id: int,
    name: string,
    former: Option<string>,
    mode: Mode,
    provider: string,
    selected: bool,
    visible: bool,
    averageRidership: Option<real>,
    changeInRidership: Option<int>,
    startingRidership: Option<int>,
    endingRidership: Option<int>)

  /** `AggregatedRecord` / `MetricWrapper`: one line's date-filtered records. */
  datatype Bucket = Bucket(selected: bool, records: seq<RidershipRecord>)

  /** `AggregatedRidership` / `LineMetricDataset`: a plain object keyed by `line_name`. */
  type Aggregated = map<string, Bucket>

  /** `lines.findIndex((line) => line.id === id)`: the first position with that id, or -1. */
  function FindLineIndex(lines: seq<Line>, id: int): (k: int)
    ensures -1 <= k < |lines|
    ensures k >= 0 ==> lines[k].id == id && forall j :: 0 <= j < k ==> lines[j].id != id
    ensures k == -1 ==> forall j :: 0 <= j < |lines| ==> lines[j].id != id
  {
    FindFirst(lines, (l: Line) => l.id == id)
  }
}
